=== FILE: README.md ===
# Sub-line extraction by linear location (GEOS `ExtractLineByLocation`)

This project models, in Dafny, how GEOS extracts the part of a linear
geometry (a line or a multi-line) that lies between two linear locations.
A linear location is a triple (component index, segment index, segment
fraction), and locations are ordered lexicographically on that triple.

- `Extraction.Extract` is `ExtractLineByLocation::extract`. The static form
  and the form bound to one geometry are the same function here, because the
  geometry is simply the first argument.
  - When the end comes before the start, it extracts forwards between the
    swapped pair and reverses the result.
  - `Geometries.Reverse` is `reverse`, and `Extraction.ReverseResult` is its
    use on a result that may be empty.
- `LinearExtraction.ComputeLinear` is `computeLinear`. It drives a line
  builder with the fix-invalid-lines option set. It feeds the builder, in
  order:
  - the start's interpolated point, when the start is not on a vertex;
  - the vertices of an ordered traversal from the start, up to the first
    vertex past the end, closing the open line after the last vertex of each
    source component;
  - the end's interpolated point, when the end is not on a vertex.
- `SingleLineExtraction.ComputeLine` is `computeLine`, the direct slicing path
  for a single line.

The classes the extractor calls into are replaced by stand-ins that follow
their documented contracts:

- `LinearLocation`: module `Locations`, plus `Geometries.Coordinate` for
  `getCoordinate`.
- `LinearIterator`: module `Traversal`. The traversal is an explicit sequence
  of vertices, proved ascending and exactly the vertices at or after the
  start.
- `LinearGeometryBuilder`: module `LineBuilder`. It is a two-state machine:
  idle, or accumulating an open line.
- The factory's `buildGeometry`: `Geometries.BuildGeometry`.

Points handed to the builder carry a provenance tag: the start, the end, or
source vertex (c, i). The builder never reads the tag, and the tags are
dropped before the geometry is built. They exist only so the proofs can say
where each output coordinate came from.

Behaviour of the code at fraction 1 that the model follows exactly:

- A location counts as a vertex when its fraction is 0 or 1 (GEOS's
  `LinearLocation::isVertex`), not only when it is 0. `computeLine` treats
  fraction 1 as reaching the next vertex (`ExtractLineByLocation.cpp` lines
  96-99).
- Extracting between a fraction-1 location and itself gives an empty
  result: `computeLinear` adds no point, so the factory returns an empty
  collection. This holds for every fraction-1 location, interior ones
  included, and `Extraction.ExtractEmptyIff` shows it is the only empty case.
- For the same reason, extracting between a location and itself gives two
  copies of its point only when its fraction is below 1
  (`Extraction.ExtractAtOneLocation`).
- With an end at fraction 1 on an interior vertex, `computeLinear` stops one
  vertex short of the end's point, because the loop stops before the next
  vertex and the end's point is never added; `computeLine` does reach it
  (`Extraction.ComputeLinearStopsShortAtInteriorFractionOne`).

## Model

| member | source | states |
|---|---|---|
| Locations.CompareLocationValues | geos-3.12.0/src/linearref/ExtractLineByLocation.cpp:146 | the three-way comparison of a location with a (component, segment, fraction) triple is negative exactly when the location is lexicographically earlier, positive exactly when it is later, and zero exactly when they are equal |
| Locations.VertexIndexAtOrAfter | geos-3.12.0/src/linearref/ExtractLineByLocation.cpp:90-94 | the first vertex index at or after a location is its segment index when the fraction is 0, and the next index otherwise |
| Locations.VertexNotBeforeIff | geos-3.12.0/src/linearref/ExtractLineByLocation.cpp:145 | vertex (c, i) is not before a location exactly when (c, i) is at or after (component, first vertex index at or after it), so the traversal's starting vertex is the right one |
| Geometries.Coordinate | geos-3.12.0/src/linearref/ExtractLineByLocation.cpp:107 | a location's point is its segment's start vertex at fraction 0, the next vertex at fraction 1, and the vertex itself on a component's last vertex |
| Geometries.Reverse | geos-3.12.0/src/linearref/ExtractLineByLocation.cpp:64-81 | reversal keeps the geometry kind and the number of components; component k of the result is component n-1-k read backwards |
| Geometries.ReverseInvolution | geos-3.12.0/src/linearref/ExtractLineByLocation.cpp:64-81 | reversing twice gives back the original geometry |
| Geometries.ReverseRunsBetween | geos-3.12.0/src/linearref/ExtractLineByLocation.cpp:57-59 | reversing a geometry that runs from a to b gives one that runs from b to a, with every component still at least two points long |
| Geometries.BuildGeometry | geos-3.12.0/src/linearref/ExtractLineByLocation.cpp:158 | the built geometry exists exactly when there is a part, it is a line exactly when there is one part, and its components are the parts |
| Traversal.Traverse | geos-3.12.0/src/linearref/ExtractLineByLocation.cpp:145 | the traversal is strictly ascending, closes a component only at its last vertex, and holds exactly the geometry's vertices not before the start, starting at the first vertex at or after the start |
| LineBuilder.Add | geos-3.12.0/src/linearref/ExtractLineByLocation.cpp:150 | adding a point opens a line if none is open, appends the point to it, leaves the closed lines alone, and makes it the last point added |
| LineBuilder.Closed | geos-3.12.0/src/linearref/ExtractLineByLocation.cpp:139 | with the fix option, a closed line has at least two points; it differs from the open line only by repeating a lone point, and keeps its points, first and last |
| LineBuilder.EndLine | geos-3.12.0/src/linearref/ExtractLineByLocation.cpp:151-153 | closing the open line appends it (fixed) to the closed lines, leaves an idle builder as it is, and keeps the points added and the first and last point |
| LineBuilder.EndLineTrail | geos-3.12.0/src/linearref/ExtractLineByLocation.cpp:151-153 | closing the open line leaves the sequence of added points as it was, or repeats its last point once |
| LineBuilder.Finish | geos-3.12.0/src/linearref/ExtractLineByLocation.cpp:158 | the finished lines are non-empty exactly when a point was added, hold exactly the points added, begin with the first point and end with the last |
| SingleLineExtraction.SliceLast | geos-3.12.0/src/linearref/ExtractLineByLocation.cpp:96-104 | the last copied index is within the coordinate sequence; it is one past the end's segment exactly when the end's fraction is 1 and a next vertex exists |
| SingleLineExtraction.Assembled | geos-3.12.0/src/linearref/ExtractLineByLocation.cpp:106-116 | no contract of its own. Its length and contents are stated by SingleLineExtraction.ComputeLineKeepsSlice and ComputeLineWithoutVertices |
| SingleLineExtraction.ComputeLine | geos-3.12.0/src/linearref/ExtractLineByLocation.cpp:83-133 | the result is a line of at least two points; it starts with the start's point when the start is not a vertex, ends with the end's point when the end is not a vertex, and holds only those points and source vertices |
| SingleLineExtraction.ComputeLineKeepsSlice | geos-3.12.0/src/linearref/ExtractLineByLocation.cpp:106-130 | between the optional interpolated points the result holds source vertices first..last contiguously and in order, every index read lying within the source, and its length is exactly those points plus the range (a lone vertex is repeated) |
| SingleLineExtraction.ComputeLineWithoutVertices | geos-3.12.0/src/linearref/ExtractLineByLocation.cpp:106-130 | when the copied range is empty the result is two points: the start's point first unless only the end's point was added, and the end's point last unless the end is a vertex |
| SingleLineExtraction.ComputeLineEndpoints | geos-3.12.0/src/linearref/ExtractLineByLocation.cpp:106-130 | for start not after end, the line's first point is the start's point and its last point is the end's point |
| SingleLineExtraction.ComputeLineAtOneLocation | geos-3.12.0/src/linearref/ExtractLineByLocation.cpp:90-130 | extracting between a location and itself gives exactly two copies of that location's point, whether or not it is a vertex |
| LinearExtraction.Visit | geos-3.12.0/src/linearref/ExtractLineByLocation.cpp:145-154 | the loop itself; its own contract only keeps the builder valid and its fix option. Its behaviour is stated by LinearExtraction.VisitAddsVerticesBeforeStop, VisitEnds, VisitKeepsComponentsApart, VisitStaysOnComponents, VisitKeepsVerticesOnce, VisitClosesAtComponentEnds and Ordering.VisitInOrder |
| LinearExtraction.StopIndex | geos-3.12.0/src/linearref/ExtractLineByLocation.cpp:145-148 | the loop consumes a prefix of the traversal in which no vertex is past the end, and stops at the first vertex past the end |
| LinearExtraction.Step | geos-3.12.0/src/linearref/ExtractLineByLocation.cpp:149-153 | one loop pass adds the vertex's point as the last point and leaves the builder idle exactly when the vertex ends its component |
| LinearExtraction.VisitAddsVerticesBeforeStop | geos-3.12.0/src/linearref/ExtractLineByLocation.cpp:145-154 | the loop adds exactly the vertex points of the prefix before the stop, and no other point |
| LinearExtraction.VisitEnds | geos-3.12.0/src/linearref/ExtractLineByLocation.cpp:145-154 | the loop keeps an existing first point, otherwise makes the first vertex the first point, makes the last consumed vertex the last point, and changes nothing when it consumes no vertex |
| LinearExtraction.VisitKeepsComponentsApart | geos-3.12.0/src/linearref/ExtractLineByLocation.cpp:151-153 | along a traversal, no line the loop builds holds vertices of two source components |
| LinearExtraction.LoopAddsVerticesBetween | geos-3.12.0/src/linearref/ExtractLineByLocation.cpp:145-154 | the vertices the loop adds are exactly the geometry's vertices lying between start and end inclusive |
| LinearExtraction.ComputeLinear | geos-3.12.0/src/linearref/ExtractLineByLocation.cpp:135-159 | no contract of its own. Its behaviour is stated by LinearExtraction.ComputeLinearPoints, ComputeLinearEnds, ComputeLinearEmptyIff, ComputeLinearPartsHaveTwoPoints, ComputeLinearStaysOnOneComponent, ComputeLinearAddsEachVertexOnce, ComputeLinearSplitsOnlyAtComponentEnds and Ordering.ComputeLinearInAddressOrder |
| LinearExtraction.ComputeLinearPoints | geos-3.12.0/src/linearref/ExtractLineByLocation.cpp:135-158 | the output holds exactly the start's point (when not a vertex), the vertices between start and end, and the end's point (when not a vertex) |
| LinearExtraction.ComputeLinearPartsHaveTwoPoints | geos-3.12.0/src/linearref/ExtractLineByLocation.cpp:138-158 | with the fix option every output line has at least two points |
| LinearExtraction.ComputeLinearKeepsComponentsApart | geos-3.12.0/src/linearref/ExtractLineByLocation.cpp:145-158 | no output line holds vertices of two different source components |
| LinearExtraction.VisitStaysOnComponents | geos-3.12.0/src/linearref/ExtractLineByLocation.cpp:145-154 | along a traversal, every line the loop closes lies on one source component, a line still open when it stops lies on the component of the last vertex consumed (the open line's own component if none is consumed), and that vertex does not end its component |
| LinearExtraction.ComputeLinearStaysOnOneComponent | geos-3.12.0/src/linearref/ExtractLineByLocation.cpp:145-158 | for start not after end, every output line lies on one source component, counting the start's point on the start's component and the end's point on the end's, so no line joins points of two components |
| LinearExtraction.VisitKeepsVerticesOnce | geos-3.12.0/src/linearref/ExtractLineByLocation.cpp:145-154 | along an ascending traversal that starts after every vertex point already held, the loop keeps each vertex point once: every line strictly ascending in its vertices (or one point repeated), and each line's vertices before those of every later line |
| LinearExtraction.ComputeLinearAddsEachVertexOnce | geos-3.12.0/src/linearref/ExtractLineByLocation.cpp:138-158 | within each output line the vertex points strictly ascend, except a line made of one point repeated, and every vertex point of a line precedes every vertex point of each later line |
| LinearExtraction.ComputeLinearVertexInOneLine | geos-3.12.0/src/linearref/ExtractLineByLocation.cpp:138-158 | no source vertex appears in two output lines |
| LinearExtraction.VisitClosesAtComponentEnds | geos-3.12.0/src/linearref/ExtractLineByLocation.cpp:145-154 | along a run of the geometry's vertices, the loop closes a line only right after the last vertex of a source component |
| LinearExtraction.ComputeLinearSplitsOnlyAtComponentEnds | geos-3.12.0/src/linearref/ExtractLineByLocation.cpp:145-158 | every output line except the last ends with the last vertex of a source component, so a line is never broken inside a component |
| LinearExtraction.ComputeLinearEnds | geos-3.12.0/src/linearref/ExtractLineByLocation.cpp:141-157 | the first output point is the start's interpolated point exactly when the start is not a vertex, and the last is the end's exactly when the end is not a vertex |
| LinearExtraction.ComputeLinearEmptyIff | geos-3.12.0/src/linearref/ExtractLineByLocation.cpp:141-158 | the output has no line exactly when both locations are vertices and no vertex lies between them |
| Extraction.Extract | geos-3.12.0/src/linearref/ExtractLineByLocation.cpp:53-62 | no contract of its own. Its behaviour is stated by Extraction.ExtractSwapReverses, ExtractEmptyIff, ExtractPartsHaveTwoPoints, ExtractAtOneLocation and ExtractRunsFromStartToEnd |
| Extraction.ValidPairSymmetric | geos-3.12.0/src/linearref/ExtractLineByLocation.cpp:53-62 | the requirement on the two locations is symmetric, so extraction in one direction is defined exactly when it is in the other |
| Extraction.ReverseResult | geos-3.12.0/src/linearref/ExtractLineByLocation.cpp:57-58 | reversing a result keeps it empty or non-empty, and reverses the geometry when there is one |
| Extraction.ExtractSwapReverses | geos-3.12.0/src/linearref/ExtractLineByLocation.cpp:53-62 | extracting with the locations swapped gives the reverse of extracting them in order, in both directions |
| Extraction.NothingBetweenIff | geos-3.12.0/src/linearref/ExtractLineByLocation.cpp:141-157 | for start not after end, both are vertices with no vertex between them exactly when they are one location with fraction 1 |
| Extraction.ExtractEmptyIff | geos-3.12.0/src/linearref/ExtractLineByLocation.cpp:53-62 | extraction yields no geometry exactly when both locations are the same location with fraction 1; the reversal in the swapped case always receives a line or multi-line |
| Extraction.ExtractPartsHaveTwoPoints | geos-3.12.0/src/linearref/ExtractLineByLocation.cpp:53-62 | every line of an extraction result, in either direction, has at least two points |
| Extraction.ComputeLinearAtOneLocation | geos-3.12.0/src/linearref/ExtractLineByLocation.cpp:135-158 | extracting forwards between a location with fraction below 1 and itself gives a line of two copies of its point |
| Extraction.ExtractAtOneLocation | geos-3.12.0/src/linearref/ExtractLineByLocation.cpp:53-62 | extracting between a location with fraction below 1 and itself gives a line of two copies of its point |
| Extraction.ComputeLinearRunsFromStartToEnd | geos-3.12.0/src/linearref/ExtractLineByLocation.cpp:135-158 | for normalized locations with start not after end, a non-empty result starts at the start's point and ends at the end's point |
| Extraction.ComputeLinearStopsShortAtInteriorFractionOne | geos-3.12.0/src/linearref/ExtractLineByLocation.cpp:145-157 | for an end at fraction 1 on an interior vertex, the forward extraction ends at the segment's start vertex rather than at the end's point, while the single-line path ends at the end's point |
| Extraction.ExtractRunsFromStartToEnd | geos-3.12.0/src/linearref/ExtractLineByLocation.cpp:42-62 | for normalized locations in either order, other than one location with fraction 1, the result is non-empty and runs from the caller's start point to the caller's end point |
| Ordering.VisitInOrder | geos-3.12.0/src/linearref/ExtractLineByLocation.cpp:145-154 | along an ascending traversal, the loop keeps the added points in location order and none after the end |
| Ordering.ComputeLinearInAddressOrder | geos-3.12.0/src/linearref/ExtractLineByLocation.cpp:141-158 | for start not after end, the output points, line after line, never step back in location order |

## Left out

- Coordinates are pairs of reals. The z ordinate and floating-point rounding
  of interpolation are not modelled, so equalities of points are exact.
- The geometry factory, `unique_ptr` ownership, coordinate-sequence storage
  and the `dynamic_cast` dispatch are not modelled. Geometries are a closed
  datatype with two kinds, so a non-linear input to `reverse` cannot be
  written.
- An empty factory result (an empty collection) is `None`. Reversing it gives
  `None`, where GEOS fails its assertion in a debug build and returns a null
  pointer otherwise. `Extraction.ExtractEmptyIff` proves this branch is never
  reached.
- `LinearLocation`, `LinearIterator` and `LinearGeometryBuilder` are not part
  of this model. Only the behaviour the extractor relies on is modelled, as
  stand-ins. In particular:
  - The builder's ignore-invalid-lines option and its treatment of repeated
    points are not modelled: repeated points are kept.
- Locations are assumed valid (`Geometries.ValidLocation`): indices in
  range, fraction in [0, 1], and every component non-empty. Out-of-range
  locations are a contract violation in GEOS. Geometries with an empty
  component are outside the model, because the traversal stand-in gives
  them no behaviour. Conversion from lengths to locations happens before
  extraction and is not modelled.
- The vertex traversal starts at the earlier of the two locations. That
  location must also be a valid start (`Geometries.ValidStart`,
  `Extraction.ValidPair`): a positive fraction on the last vertex of a
  component is allowed only on the last component. From any other such
  start, the iterator would begin past the component's last vertex, and
  its behaviour there is not part of this model. The later location needs
  no such restriction, because it is only compared with vertices and
  interpolated (lines 146 and 156). For example, an end at (0, 1, 0.5) on
  a two-component geometry is covered.
- Extraction.ExtractRunsFromStartToEnd: requires both locations to be in
  the normal form `Geometries.Normalized`: fraction below 1, except at the
  geometry's end location. Outside that form the property fails: with an end
  at fraction 1 on an interior vertex the result ends one vertex short of the
  end's point, as `Extraction.ComputeLinearStopsShortAtInteriorFractionOne`
  proves.
- Extraction.ComputeLinearRunsFromStartToEnd: same normal-form requirement as
  above.
- Extraction.ExtractAtOneLocation: requires a fraction below 1. At fraction 1
  the result is empty, as `Extraction.ExtractEmptyIff` states.
- SingleLineExtraction.ComputeLine: requires a single line, which is the
  caller contract of `computeLine`. `extract` itself never calls
  `computeLine`.
- Ordering.ComputeLinearInAddressOrder: the order is stated on the locations
  the output points stand for, for the forward direction only. The reversed
  direction follows from `Extraction.ExtractSwapReverses` but is not stated
  separately.

=== FILE: builder.dfy ===
/**
 The incremental line accumulator.

 It is a two-state machine: `Idle` between output lines and `Accumulating`
 while a line is open. `Add` appends a point to the open line (opening one if
 needed), `EndLine` closes the open line, and `Finish` closes any open line
 and hands the finished lines to the geometry factory. With the
 fix-invalid-lines option on, a line closed with a single point gets that
 point duplicated so it has two. The point type is a parameter: the
 accumulator never looks inside a point.
 */
module LineBuilder {

  datatype Builder<P> =
    | Idle(fixInvalidLines: bool, lines: seq<seq<P>>)
    | Accumulating(fixInvalidLines: bool, lines: seq<seq<P>>, current: seq<P>)

  /** Every finished line and the open line hold at least one point. */
  predicate Valid<P(==)>(b: Builder<P>) {
    && (forall part :: part in b.lines ==> |part| > 0)
    && (b.Accumulating? ==> |b.current| > 0)
  }

  /** Every finished line holds at least two points. */
  predicate AllLong<P(==)>(lines: seq<seq<P>>) {
    forall part :: part in lines ==> |part| >= 2
  }

  /** Some point has been added. */
  predicate HasPoints<P(==)>(b: Builder<P>) {
    |b.lines| > 0 || b.Accumulating?
  }

  /** Every point of some line. */
  ghost function LinePoints<P>(lines: seq<seq<P>>): (r: set<P>) {
    set part, p | part in lines && p in part :: p
  }

  /** Every point added so far. */
  ghost function Points<P>(b: Builder<P>): (r: set<P>) {
    LinePoints(b.lines) + (if b.Accumulating? then set p | p in b.current else {})
  }

  /** The first and the last point added are among the points added. */
  lemma EndsAreAdded<P>(b: Builder<P>)
    requires Valid(b) && HasPoints(b)
    ensures FirstPoint(b) in Points(b) && LastPoint(b) in Points(b)
  {
    if |b.lines| > 0 {
      var first := b.lines[0];
      assert first in b.lines && first[0] in first;
      assert first[0] in LinePoints(b.lines);
    } else {
      assert b.current[0] in b.current;
    }
    if b.Accumulating? {
      assert b.current[|b.current| - 1] in b.current;
    } else {
      var last := b.lines[|b.lines| - 1];
      assert last in b.lines && last[|last| - 1] in last;
      assert last[|last| - 1] in LinePoints(b.lines);
    }
  }

  /** The first point added. */
  function FirstPoint<P(==)>(b: Builder<P>): (r: P)
    requires Valid(b) && HasPoints(b)
  {
    if |b.lines| > 0 then b.lines[0][0] else b.current[0]
  }

  /** The most recently added point. */
  function LastPoint<P(==)>(b: Builder<P>): (r: P)
    requires Valid(b) && HasPoints(b)
  {
    if b.Accumulating? then b.current[|b.current| - 1]
    else var last := b.lines[|b.lines| - 1]; last[|last| - 1]
  }

  function New<P(==)>(fixInvalidLines: bool): (r: Builder<P>)
    ensures Valid(r) && !HasPoints(r) && Points(r) == {}
    ensures r.fixInvalidLines == fixInvalidLines
  {
    Idle(fixInvalidLines, [])
  }

  /** Appends `p` to the open line, opening a new line when idle. */
  function Add<P(==)>(b: Builder<P>, p: P): (r: Builder<P>)
    requires Valid(b)
    ensures Valid(r) && r.Accumulating? && HasPoints(r)
    ensures r.fixInvalidLines == b.fixInvalidLines && r.lines == b.lines
    ensures r.current == (if b.Accumulating? then b.current else []) + [p]
    ensures Points(r) == Points(b) + {p}
    ensures LastPoint(r) == p
    ensures FirstPoint(r) == if HasPoints(b) then FirstPoint(b) else p
  {
    var r := Accumulating(b.fixInvalidLines, b.lines, (if b.Accumulating? then b.current else []) + [p]);
    assert r.current[|r.current| - 1] == p;
    r
  }

  /**
   The line as it is closed: unchanged, except that with the fix option a
   one-point line gets its point repeated.
   */
  function Closed<P(==,!new)>(fixInvalidLines: bool, part: seq<P>): (r: seq<P>)
    requires |part| > 0
    ensures fixInvalidLines ==> |r| >= 2
    ensures |r| >= |part| && r[..|part|] == part
    ensures forall p :: p in r <==> p in part
    ensures r[0] == part[0] && r[|r| - 1] == part[|part| - 1]
    ensures |r| != |part| ==> fixInvalidLines && |part| == 1 && r == [part[0], part[0]]
  {
    if fixInvalidLines && |part| < 2 then part + [part[0]] else part
  }

  /** Closes the open line, if any; afterwards the builder is idle. */
  function EndLine<P(==,!new)>(b: Builder<P>): (r: Builder<P>)
    requires Valid(b)
    ensures Valid(r) && r.Idle? && r.fixInvalidLines == b.fixInvalidLines
    ensures b.Idle? ==> r == b
    ensures b.Accumulating? ==> r.lines == b.lines + [Closed(b.fixInvalidLines, b.current)]
    ensures HasPoints(r) == HasPoints(b)
    ensures Points(r) == Points(b)
    ensures HasPoints(b) ==> FirstPoint(r) == FirstPoint(b) && LastPoint(r) == LastPoint(b)
    ensures b.fixInvalidLines && AllLong(b.lines) ==> AllLong(r.lines)
  {
    match b
    case Idle(_, _) => b
    case Accumulating(fix, lines, current) =>
      var closed := Closed(fix, current);
      var r := Idle(fix, lines + [closed]);
      assert forall p :: p in closed <==> p in current;
      assert forall part :: part in r.lines <==> part in lines || part == closed;
      assert Points(r) == Points(b) by {
        forall p ensures p in Points(r) <==> p in Points(b) {
          if p in current {
            assert closed in r.lines && p in closed;
          }
        }
      }
      r
  }

  /** The finished lines, after closing any open line. */
  function Finish<P(==,!new)>(b: Builder<P>): (parts: seq<seq<P>>)
    requires Valid(b)
    ensures forall part :: part in parts ==> |part| > 0
    ensures |parts| > 0 <==> HasPoints(b)
    ensures b.fixInvalidLines && AllLong(b.lines) ==> AllLong(parts)
    ensures LinePoints(parts) == Points(b)
    ensures HasPoints(b) ==> parts[0][0] == FirstPoint(b)
    ensures HasPoints(b) ==> var last := parts[|parts| - 1]; last[|last| - 1] == LastPoint(b)
  {
    EndLine(b).lines
  }

  /** The lines laid end to end. */
  function Flatten<P>(lines: seq<seq<P>>): (r: seq<P>) {
    if |lines| == 0 then [] else Flatten(lines[..|lines| - 1]) + lines[|lines| - 1]
  }

  lemma FlattenAppend<P>(lines: seq<seq<P>>, line: seq<P>)
    ensures Flatten(lines + [line]) == Flatten(lines) + line
  {
    assert (lines + [line])[..|lines|] == lines;
  }

  /** Every point added so far, in the order added (closing duplicates included). */
  function Trail<P>(b: Builder<P>): (r: seq<P>) {
    Flatten(b.lines) + (if b.Accumulating? then b.current else [])
  }

  /** Adding a point extends the trail by exactly that point. */
  lemma AddExtendsTrail<P>(b: Builder<P>, p: P)
    requires Valid(b)
    ensures Trail(Add(b, p)) == Trail(b) + [p]
  {
  }

  /**
   Closing the open line leaves the trail as it was, or repeats the last
   point once (the fix for a one-point line).
   */
  lemma EndLineTrail<P(!new)>(b: Builder<P>)
    requires Valid(b)
    ensures Trail(EndLine(b)) == Trail(b)
      || (HasPoints(b) && Trail(EndLine(b)) == Trail(b) + [LastPoint(b)])
  {
    if b.Accumulating? {
      FlattenAppend(b.lines, Closed(b.fixInvalidLines, b.current));
    }
  }

  /** The finished lines, laid end to end, are the trail after closing the open line. */
  lemma FinishTrail<P(!new)>(b: Builder<P>)
    requires Valid(b)
    ensures Flatten(Finish(b)) == Trail(EndLine(b))
  {
  }

  lemma FlattenEndsWithLastLine<P>(lines: seq<seq<P>>)
    requires |lines| > 0 && |lines[|lines| - 1]| > 0
    ensures var last := lines[|lines| - 1];
      |Flatten(lines)| > 0 && Flatten(lines)[|Flatten(lines)| - 1] == last[|last| - 1]
  {
  }

  /** The trail ends with the most recently added point. */
  lemma TrailEndsAtLastPoint<P>(b: Builder<P>)
    requires Valid(b) && HasPoints(b)
    ensures |Trail(b)| > 0 && Trail(b)[|Trail(b)| - 1] == LastPoint(b)
  {
    var t := Trail(b);
    if b.Accumulating? {
      assert t == Flatten(b.lines) + b.current;
      assert t[|t| - 1] == b.current[|b.current| - 1];
    } else {
      var f := Flatten(b.lines);
      assert b.lines[|b.lines| - 1] in b.lines;
      FlattenEndsWithLastLine(b.lines);
      assert t == f + [] == f;
    }
  }
}

=== FILE: extraction.dfy ===
/**
 Direction-normalising extraction.

 When the end comes before the start, the sub-line is extracted forwards
 between the swapped pair and the result is reversed, so the output always
 runs from the caller's start towards the caller's end. The static form and
 the form bound to a fixed geometry are the same function here: the
 geometry is simply the first argument.
 */
module Extraction {
  import opened Options
  import opened Locations
  import opened Geometries
  import opened Traversal
  import opened LineBuilder
  import opened LinearExtraction
  import SingleLineExtraction

  /**
   Reversal of an extraction result. An empty result (which is neither a
   line nor a multi-line) stays empty: reversing it is a contract violation
   in the source and yields no geometry.
   */
  function ReverseResult(r: Option<Geometry>): (rev: Option<Geometry>)
    ensures rev.Some? <==> r.Some?
    ensures r.Some? ==> rev.value == Reverse(r.value)
  {
    match r
    case Some(g) => Some(Reverse(g))
    case None => None
  }

  /**
   Both locations are valid, and the earlier one, where the forward
   extraction's vertex traversal starts, is a valid start.
   */
  predicate ValidPair(g: Geometry, start: Location, end: Location) {
    && ValidLocation(g, start)
    && ValidLocation(g, end)
    && (if Before(end, start) then ValidStart(g, end) else ValidStart(g, start))
  }

  /** Validity of a pair does not depend on the order of its locations. */
  lemma ValidPairSymmetric(g: Geometry, start: Location, end: Location)
    ensures ValidPair(g, start, end) <==> ValidPair(g, end, start)
  {
    CompareToAntisymmetric(start, end);
  }

  /** The sub-line of `g` from `start` to `end`, in that direction. */
  function Extract(g: Geometry, start: Location, end: Location): (r: Option<Geometry>)
    requires ValidPair(g, start, end)
  {
    if Before(end, start) then ReverseResult(ComputeLinear(g, end, start))
    else ComputeLinear(g, start, end)
  }

  /**
   Extracting with the locations swapped gives the reverse of extracting
   with them in order, in both directions.
   */
  lemma ExtractSwapReverses(g: Geometry, start: Location, end: Location)
    requires ValidPair(g, start, end)
    ensures Before(end, start) ==> Extract(g, start, end) == ReverseResult(Extract(g, end, start))
    ensures Before(start, end) ==> Extract(g, start, end) == ReverseResult(Extract(g, end, start))
  {
    ValidPairSymmetric(g, start, end);
    CompareToAntisymmetric(start, end);
    if Before(start, end) {
      var r := ComputeLinear(g, start, end);
      if r.Some? {
        ReverseInvolution(r.value);
      }
    }
  }

  /** The output of the forward extraction is one of the geometry's kinds, built from the tagged lines. */
  lemma ComputeLinearBuildsParts(g: Geometry, start: Location, end: Location)
    requires ValidStart(g, start) && ValidLocation(g, end)
    ensures var parts := ComputeLinearParts(g, start, end);
      var r := ComputeLinear(g, start, end);
      && (r.Some? <==> |parts| > 0)
      && (r.Some? ==> |Components(r.value)| == |parts|)
      && (r.Some? ==> forall k :: 0 <= k < |parts| ==> Components(r.value)[k] == Coords(parts[k]))
  {
  }

  /**
   For ordered, well-formed locations, no vertex lies between them and both
   are vertices exactly when they are one location with fraction 1 (the far
   end of its segment).
   */
  lemma NothingBetweenIff(g: Geometry, start: Location, end: Location)
    requires ValidStart(g, start) && ValidLocation(g, end)
    requires !Before(end, start)
    ensures IsVertex(start) && IsVertex(end) && VertexPointsBetween(g, start, end) == {}
      <==> start == end && start.fraction == 1.0
  {
    var comps := Components(g);
    CompareToAntisymmetric(start, end);
    if start == end && start.fraction == 1.0 {
      // a vertex between them would be a location equal to `start` with fraction 0
      assert VertexPointsBetween(g, start, end) == {};
    } else if IsVertex(start) && IsVertex(end) {
      if start.fraction == 0.0 {
        var c, i := start.component, start.segment;
        assert Location(c, i, 0.0) == start;
        assert Point(comps[c][i], AtVertex(c, i)) in VertexPointsBetween(g, start, end);
      } else {
        var c, i := end.component, end.segment;
        assert !Before(Location(c, i, 0.0), start);
        assert Point(comps[c][i], AtVertex(c, i)) in VertexPointsBetween(g, start, end);
      }
    }
  }

  /**
   Extraction yields no geometry exactly when both locations are the same
   location with fraction 1; in every other case it yields a line or a
   multi-line. In particular the reversal of the swapped case always
   receives a line or a multi-line.
   */
  lemma ExtractEmptyIff(g: Geometry, start: Location, end: Location)
    requires ValidPair(g, start, end)
    ensures Extract(g, start, end).None? <==> start == end && start.fraction == 1.0
    ensures Before(end, start) ==> ComputeLinear(g, end, start).Some?
  {
    CompareToAntisymmetric(start, end);
    if Before(end, start) {
      ComputeLinearBuildsParts(g, end, start);
      ComputeLinearEmptyIff(g, end, start);
      NothingBetweenIff(g, end, start);
    } else {
      ComputeLinearBuildsParts(g, start, end);
      ComputeLinearEmptyIff(g, start, end);
      NothingBetweenIff(g, start, end);
    }
  }

  /** The geometry built from tagged lines of at least two points has long components. */
  lemma BuiltLong(parts: seq<seq<Point>>)
    requires forall part :: part in parts ==> |part| >= 2
    ensures BuildGeometry(Stripped(parts)).Some? ==> LongComponents(BuildGeometry(Stripped(parts)).value)
  {
    forall k | 0 <= k < |parts| ensures |Stripped(parts)[k]| >= 2 {
      assert parts[k] in parts;
    }
  }

  /** Every line of an extraction result has at least two points. */
  lemma ExtractPartsHaveTwoPoints(g: Geometry, start: Location, end: Location)
    requires ValidPair(g, start, end)
    ensures var r := Extract(g, start, end);
      r.Some? ==> forall k :: 0 <= k < |Components(r.value)| ==> |Components(r.value)[k]| >= 2
  {
    if Before(end, start) {
      var forward := ComputeLinear(g, end, start);
      ComputeLinearPartsHaveTwoPoints(g, end, start);
      BuiltLong(ComputeLinearParts(g, end, start));
      if forward.Some? {
        ReverseKeepsLongComponents(forward.value);
      }
    } else {
      ComputeLinearPartsHaveTwoPoints(g, start, end);
      BuiltLong(ComputeLinearParts(g, start, end));
    }
  }

  /** From a point inside a segment, the traversal stops before its first vertex when the end is that point. */
  lemma StopsAtOnceInside(g: Geometry, loc: Location)
    requires ValidStart(g, loc) && !IsVertex(loc)
    ensures StopIndex(Traverse(g, loc), loc) == 0
  {
    var vs := Traverse(g, loc);
    if |vs| > 0 {
      assert vs[0] in vs;
      CompareToAntisymmetric(LocationOf(vs[0]), loc);
    }
  }

  /** Between an interior location and itself, the one line is its start and end points. */
  lemma PartsAtOneInteriorLocation(g: Geometry, loc: Location)
    requires ValidStart(g, loc) && !IsVertex(loc)
    ensures ComputeLinearParts(g, loc, loc)
      == [[Point(Coordinate(g, loc), AtStart), Point(Coordinate(g, loc), AtEnd)]]
  {
    var vs := Traverse(g, loc);
    StopsAtOnceInside(g, loc);
    var b1 := BuilderAfterStart(g, loc);
    var first, last := Point(Coordinate(g, loc), AtStart), Point(Coordinate(g, loc), AtEnd);
    assert b1 == Accumulating(true, [], [first]);
    VisitEnds(b1, vs, loc);
    assert BuilderAfterLoop(g, loc, loc) == b1;
    assert BuilderAfterEnd(g, loc, loc) == Accumulating(true, [], [first, last]);
    assert Closed(true, [first, last]) == [first, last];
  }

  /** The traversal from a vertex location stops after that one vertex, when ending there. */
  lemma StopsAfterOneVertex(g: Geometry, loc: Location)
    requires ValidStart(g, loc) && loc.fraction == 0.0
    ensures var vs := Traverse(g, loc);
      && |vs| > 0 && vs[0].component == loc.component && vs[0].index == loc.segment
      && vs[0].pt == Coordinate(g, loc)
      && StopIndex(vs[1..], loc) == 0
  {
    var vs := Traverse(g, loc);
    assert vs[0] in vs;
    if |vs| > 1 {
      assert PositionLess(vs[0], vs[1]);
      assert PastEnd(vs[1], loc);
    }
  }

  /** Between a vertex location and itself, the one line is that vertex, repeated. */
  lemma PartsAtOneVertex(g: Geometry, loc: Location)
    requires ValidStart(g, loc) && loc.fraction == 0.0
    ensures var p := Point(Coordinate(g, loc), AtVertex(loc.component, loc.segment));
      ComputeLinearParts(g, loc, loc) == [[p, p]]
  {
    var vs := Traverse(g, loc);
    StopsAfterOneVertex(g, loc);
    var v := vs[0];
    var b1 := BuilderAfterStart(g, loc);
    var added := Add(b1, VertexPoint(v));
    assert added == Accumulating(true, [], [VertexPoint(v)]);
    var next := Step(b1, v);
    assert next == if v.endOfLine then EndLine(added) else added;
    VisitEnds(next, vs[1..], loc);
    assert BuilderAfterEnd(g, loc, loc) == next;
  }

  /** A single tagged two-point line builds a line through its two coordinates. */
  lemma BuiltFromPair(p: Point, q: Point)
    ensures BuildGeometry(Stripped([[p, q]])) == Some(Line([p.coord, q.coord]))
  {
    assert Coords([p, q]) == [p.coord, q.coord];
    assert Stripped([[p, q]]) == [[p.coord, q.coord]];
  }

  /**
   Extracting forwards between a location (with fraction below 1) and itself
   yields a two-point line whose points both equal the location's point.
   */
  lemma ComputeLinearAtOneLocation(g: Geometry, loc: Location)
    requires ValidStart(g, loc) && loc.fraction < 1.0
    ensures ComputeLinear(g, loc, loc) == Some(Line([Coordinate(g, loc), Coordinate(g, loc)]))
  {
    var c := Coordinate(g, loc);
    if !IsVertex(loc) {
      PartsAtOneInteriorLocation(g, loc);
      BuiltFromPair(Point(c, AtStart), Point(c, AtEnd));
    } else {
      PartsAtOneVertex(g, loc);
      var p := Point(c, AtVertex(loc.component, loc.segment));
      BuiltFromPair(p, p);
    }
  }


  /**
   Extracting between a location (with fraction below 1) and itself yields a
   two-point line whose points both equal the location's point.
   */
  lemma ExtractAtOneLocation(g: Geometry, loc: Location)
    requires ValidStart(g, loc) && loc.fraction < 1.0
    ensures Extract(g, loc, loc) == Some(Line([Coordinate(g, loc), Coordinate(g, loc)]))
  {
    ComputeLinearAtOneLocation(g, loc);
  }

  /** A normalized location with fraction 1 is the very end, so nothing comes after it. */
  lemma EndLocationIsLast(g: Geometry, start: Location, end: Location)
    requires ValidStart(g, start) && ValidLocation(g, end) && Normalized(g, start)
    requires start.fraction == 1.0 && !Before(end, start)
    ensures end == start
  {
  }

  /**
   For ordered normalized locations, a non-empty forward extraction starts
   at the start's point.
   */
  lemma ComputeLinearStartsAtStart(g: Geometry, start: Location, end: Location)
    requires ValidStart(g, start) && ValidLocation(g, end) && Normalized(g, start)
    requires !Before(end, start)
    requires |ComputeLinearParts(g, start, end)| > 0
    ensures ComputeLinearParts(g, start, end)[0][0].coord == Coordinate(g, start)
  {
    ComputeLinearEnds(g, start, end);
    if IsVertex(start) {
      if start.fraction == 1.0 {
        EndLocationIsLast(g, start, end);
        ComputeLinearEmptyIff(g, start, end);
        NothingBetweenIff(g, start, end);
        assert false;
      }
      var vs := Traverse(g, start);
      assert vs[0] in vs && LocationOf(vs[0]) == start;
      assert StopIndex(vs, end) > 0;
      var b1 := BuilderAfterStart(g, start);
      VisitEnds(b1, vs, end);
    }
  }

  /** The source vertex an end location on a vertex stands for. */
  function EndVertex(g: Geometry, end: Location): (v: Vertex)
    requires ValidLocation(g, end)
    ensures IsVertexOf(Components(g), v)
    ensures Normalized(g, end) && IsVertex(end) ==> v.pt == Coordinate(g, end) && !PastEnd(v, end)
  {
    var pts := Components(g)[end.component];
    Vertex(end.component, end.segment, pts[end.segment], end.segment == |pts| - 1)
  }

  /** Every vertex after the end vertex lies past a normalized end on a vertex. */
  lemma AfterEndVertexIsPast(g: Geometry, end: Location)
    requires ValidLocation(g, end) && Normalized(g, end) && IsVertex(end)
    ensures forall w :: IsVertexOf(Components(g), w) && PositionLess(EndVertex(g, end), w) ==> PastEnd(w, end)
  {
  }

  /**
   On an ascending run, when `v` is not past the end but every vertex after
   it is, the loop's last point is `v`'s.
   */
  lemma VisitEndsAtLastBeforeEnd(b: Builder<Point>, vs: seq<Vertex>, end: Location, v: Vertex)
    requires Valid(b) && Ascending(vs)
    requires v in vs && !PastEnd(v, end)
    requires forall w :: w in vs && PositionLess(v, w) ==> PastEnd(w, end)
    ensures HasPoints(Visit(b, vs, end)) && LastPoint(Visit(b, vs, end)) == VertexPoint(v)
  {
    var k := StopIndex(vs, end);
    StopIndexSplitsAtEnd(vs, end);
    assert v in vs[..k];
    var j :| 0 <= j < k && vs[j] == v;
    if j < k - 1 {
      assert false;
    }
    VisitEnds(b, vs, end);
  }

  /** When the traversal reaches the end vertex, the loop's last point is that vertex. */
  lemma LoopEndsAtVisitedEndVertex(g: Geometry, start: Location, end: Location)
    requires ValidStart(g, start) && ValidLocation(g, end) && Normalized(g, end) && IsVertex(end)
    requires !Before(LocationOf(EndVertex(g, end)), start)
    ensures var b := BuilderAfterLoop(g, start, end);
      HasPoints(b) && LastPoint(b).coord == Coordinate(g, end)
  {
    var v := EndVertex(g, end);
    var vs := Traverse(g, start);
    AfterEndVertexIsPast(g, end);
    assert v in vs;
    VisitEndsAtLastBeforeEnd(BuilderAfterStart(g, start), vs, end, v);
  }

  /**
   When the start lies past the end vertex (inside the final stub of a
   fraction-1 end), the traversal is empty and the loop's last point is the
   start's point, which coincides with the end's point.
   */
  lemma LoopEndsAtStartPastEndVertex(g: Geometry, start: Location, end: Location)
    requires ValidStart(g, start) && ValidLocation(g, end) && Normalized(g, end) && IsVertex(end)
    requires !Before(end, start) && start != end
    requires Before(LocationOf(EndVertex(g, end)), start)
    ensures var b := BuilderAfterLoop(g, start, end);
      HasPoints(b) && LastPoint(b).coord == Coordinate(g, end)
  {
    var vs := Traverse(g, start);
    assert start.component == end.component && start.segment == end.segment;
    assert 0.0 < start.fraction < 1.0 && end.fraction == 1.0;
    if |vs| > 0 {
      assert false;
    }
    VisitEnds(BuilderAfterStart(g, start), vs, end);
  }

  /**
   For ordered normalized locations, a non-empty forward extraction ends at
   the end's point.
   */
  lemma ComputeLinearEndsAtEnd(g: Geometry, start: Location, end: Location)
    requires ValidStart(g, start) && ValidLocation(g, end) && Normalized(g, end)
    requires !Before(end, start)
    requires |ComputeLinearParts(g, start, end)| > 0
    ensures var parts := ComputeLinearParts(g, start, end);
      parts[|parts| - 1][|parts[|parts| - 1]| - 1].coord == Coordinate(g, end)
  {
    ComputeLinearEnds(g, start, end);
    if IsVertex(end) {
      if start == end {
        ComputeLinearEmptyIff(g, start, end);
        NothingBetweenIff(g, start, end);
        if start.fraction == 1.0 {
          assert false;
        }
      }
      if !Before(LocationOf(EndVertex(g, end)), start) {
        LoopEndsAtVisitedEndVertex(g, start, end);
      } else {
        LoopEndsAtStartPastEndVertex(g, start, end);
      }
    }
  }

  /** The geometry built from tagged lines keeps their first and last points. */
  lemma BuiltRunsBetween(parts: seq<seq<Point>>, a: Coord, b: Coord)
    requires |parts| > 0 && forall part :: part in parts ==> |part| >= 2
    requires parts[0][0].coord == a
    requires parts[|parts| - 1][|parts[|parts| - 1]| - 1].coord == b
    ensures BuildGeometry(Stripped(parts)).Some?
    ensures RunsBetween(BuildGeometry(Stripped(parts)).value, a, b)
  {
    var r := BuildGeometry(Stripped(parts)).value;
    forall k | 0 <= k < |parts| ensures |Components(r)[k]| >= 2 {
      assert parts[k] in parts;
    }
    assert parts[0] in parts;
  }

  /**
   For ordered normalized locations, a non-empty forward extraction runs
   from the start's point to the end's point.
   */
  lemma ComputeLinearRunsFromStartToEnd(g: Geometry, start: Location, end: Location)
    requires ValidStart(g, start) && ValidLocation(g, end)
    requires Normalized(g, start) && Normalized(g, end)
    requires !Before(end, start) && ComputeLinear(g, start, end).Some?
    ensures RunsBetween(ComputeLinear(g, start, end).value, Coordinate(g, start), Coordinate(g, end))
  {
    var parts := ComputeLinearParts(g, start, end);
    ComputeLinearPartsHaveTwoPoints(g, start, end);
    ComputeLinearStartsAtStart(g, start, end);
    ComputeLinearEndsAtEnd(g, start, end);
    BuiltRunsBetween(parts, Coordinate(g, start), Coordinate(g, end));
  }

  /** Between vertex `s` of a line and the far end of its segment, the only vertex is `s`. */
  lemma OnlySegmentStartBetween(pts: seq<Coord>, s: nat)
    requires s + 1 < |pts|
    ensures VertexPointsBetween(Line(pts), Location(0, s, 0.0), Location(0, s, 1.0))
      <= {Point(pts[s], AtVertex(0, s))}
  {
  }

  /**
   A location with fraction 1 on an interior vertex is outside the normal form
   covered above, and there the forward extraction stops one vertex short:
   the loop stops before vertex `s + 1`, and the end counts as a vertex, so
   its point is never added. The result ends at vertex `s`, not at the end's
   point (vertex `s + 1`), while the single-line path, which steps past
   fraction 1, does end at the end's point.
   */
  lemma ComputeLinearStopsShortAtInteriorFractionOne(pts: seq<Coord>, s: nat)
    requires s + 1 < |pts| && pts[s] != pts[s + 1]
    ensures var g := Line(pts);
      var start := Location(0, s, 0.0);
      var end := Location(0, s, 1.0);
      var r := ComputeLinear(g, start, end);
      var line := SingleLineExtraction.ComputeLine(g, start, end).points;
      && Coordinate(g, end) == pts[s + 1]
      && r.Some? && LastCoord(r.value) == pts[s] && LastCoord(r.value) != Coordinate(g, end)
      && line[|line| - 1] == Coordinate(g, end)
  {
    var g := Line(pts);
    var start := Location(0, s, 0.0);
    var end := Location(0, s, 1.0);
    PartsEndAtSegmentStart(pts, s);
    BuiltEndsAt(ComputeLinearParts(g, start, end), pts[s]);
    SingleLineExtraction.ComputeLineEndsAtEnd(g, start, end);
  }

  /** The forward extraction from vertex `s` to the far end of its segment ends at vertex `s`. */
  lemma PartsEndAtSegmentStart(pts: seq<Coord>, s: nat)
    requires s + 1 < |pts|
    ensures var parts := ComputeLinearParts(Line(pts), Location(0, s, 0.0), Location(0, s, 1.0));
      |parts| > 0 && |parts[|parts| - 1]| > 0
      && parts[|parts| - 1][|parts[|parts| - 1]| - 1].coord == pts[s]
  {
    var g := Line(pts);
    var start := Location(0, s, 0.0);
    var end := Location(0, s, 1.0);
    var parts := ComputeLinearParts(g, start, end);
    ComputeLinearPoints(g, start, end);
    ComputeLinearEmptyIff(g, start, end);
    NothingBetweenIff(g, start, end);
    OnlySegmentStartBetween(pts, s);
    var last := parts[|parts| - 1];
    assert last in parts && last[|last| - 1] in last;
    assert last[|last| - 1] in LinePoints(parts);
  }

  /** The geometry built from non-empty tagged lines ends at the last line's last point. */
  lemma BuiltEndsAt(parts: seq<seq<Point>>, b: Coord)
    requires |parts| > 0 && |parts[|parts| - 1]| > 0
    requires parts[|parts| - 1][|parts[|parts| - 1]| - 1].coord == b
    ensures BuildGeometry(Stripped(parts)).Some? && LastCoord(BuildGeometry(Stripped(parts)).value) == b
  {
    var last := Stripped(parts)[|parts| - 1];
    assert last == Coords(parts[|parts| - 1]);
  }

  /**
   For normalized locations other than one location at fraction 1, the
   extraction is non-empty and runs from the caller's start point to the
   caller's end point, whichever order they come in.
   */
  lemma ExtractRunsFromStartToEnd(g: Geometry, start: Location, end: Location)
    requires ValidPair(g, start, end)
    requires Normalized(g, start) && Normalized(g, end)
    requires start != end || start.fraction < 1.0
    ensures Extract(g, start, end).Some?
    ensures RunsBetween(Extract(g, start, end).value, Coordinate(g, start), Coordinate(g, end))
  {
    ExtractEmptyIff(g, start, end);
    CompareToAntisymmetric(start, end);
    if Before(end, start) {
      var forward := ComputeLinear(g, end, start);
      assert Extract(g, start, end) == ReverseResult(forward);
      ComputeLinearRunsFromStartToEnd(g, end, start);
      ReverseRunsBetween(forward.value, Coordinate(g, end), Coordinate(g, start));
    } else {
      ComputeLinearRunsFromStartToEnd(g, start, end);
    }
  }
}

=== FILE: geometries.dfy ===
/**
 Linear geometries: a single line or a multi-line, as a closed variant.
 Both are read as a sequence of components (coordinate sequences).
 */
module Geometries {
  import opened Options
  import opened Locations

  datatype Geometry = Line(points: seq<Coord>) | MultiLine(lines: seq<seq<Coord>>)

  /** The components of a geometry: one for a line, the parts of a multi-line. */
  function Components(g: Geometry): (r: seq<seq<Coord>>)
    ensures g.Line? ==> r == [g.points]
    ensures g.MultiLine? ==> r == g.lines
  {
    match g
    case Line(pts) => [pts]
    case MultiLine(ls) => ls
  }

  /** Every component has at least one vertex, so a traversal never lands on an empty one. */
  predicate NoEmptyComponent(g: Geometry) {
    forall k :: 0 <= k < |Components(g)| ==> |Components(g)[k]| > 0
  }

  /**
   `loc` addresses an existing vertex or segment of `g`, on a geometry whose
   components all have a vertex.
   */
  predicate ValidLocation(g: Geometry, loc: Location) {
    && WellFormed(loc)
    && NoEmptyComponent(g)
    && loc.component < |Components(g)|
    && loc.segment < |Components(g)[loc.component]|
  }

  /**
   `loc` is valid and a vertex traversal can start there: a positive fraction
   on a component's last vertex (past the component's end) only occurs on the
   last component, since on any other component the traversal would start
   beyond the component's last vertex.
   */
  predicate ValidStart(g: Geometry, loc: Location) {
    && ValidLocation(g, loc)
    && (loc.fraction == 0.0 || loc.segment + 1 < |Components(g)[loc.component]|
        || loc.component + 1 == |Components(g)|)
  }

  /**
   A normal form for locations: the fraction is below 1, except for the end
   location of the geometry, which sits on the last vertex of the last
   component.
   */
  predicate Normalized(g: Geometry, loc: Location)
    requires ValidLocation(g, loc)
  {
    loc.fraction < 1.0
    || (loc.component == |Components(g)| - 1 && loc.segment == |Components(g)[loc.component]| - 1)
  }

  /**
   The coordinate `loc` denotes on `g`: the interpolation along its segment,
   or the vertex itself when the segment index is the component's last vertex.
   */
  function Coordinate(g: Geometry, loc: Location): (r: Coord)
    requires ValidLocation(g, loc)
    ensures var pts := Components(g)[loc.component];
      && (loc.fraction == 0.0 ==> r == pts[loc.segment])
      && (loc.fraction == 1.0 ==> r == pts[if loc.segment + 1 < |pts| then loc.segment + 1 else loc.segment])
      && (loc.segment + 1 == |pts| ==> r == pts[loc.segment])
  {
    var pts := Components(g)[loc.component];
    if loc.segment + 1 >= |pts| then pts[loc.segment]
    else Lerp(pts[loc.segment], pts[loc.segment + 1], loc.fraction)
  }

  /** The elements of `s` in the opposite order. */
  function Rev<T>(s: seq<T>): (r: seq<T>)
    ensures |r| == |s|
    ensures forall i :: 0 <= i < |s| ==> r[i] == s[|s| - 1 - i]
  {
    if |s| == 0 then [] else Rev(s[1..]) + [s[0]]
  }

  lemma {:induction false} RevRev<T>(s: seq<T>)
    ensures Rev(Rev(s)) == s
  {
    var r := Rev(Rev(s));
    assert |r| == |s|;
    forall i | 0 <= i < |s|
      ensures r[i] == s[i]
    {
      assert r[i] == Rev(s)[|s| - 1 - i];
    }
  }

  /**
   Reverses the direction of a linear geometry: the vertex order of a line,
   and for a multi-line both the order of its components and the vertex order
   within each.
   */
  function Reverse(g: Geometry): (r: Geometry)
    ensures r.Line? <==> g.Line?
    ensures |Components(r)| == |Components(g)|
    ensures forall k :: 0 <= k < |Components(g)| ==>
      Components(r)[k] == Rev(Components(g)[|Components(g)| - 1 - k])
  {
    match g
    case Line(pts) => Line(Rev(pts))
    case MultiLine(ls) => MultiLine(Rev(seq(|ls|, k requires 0 <= k < |ls| => Rev(ls[k]))))
  }

  /** Reversing twice gives back the original geometry. */
  lemma ReverseInvolution(g: Geometry)
    ensures Reverse(Reverse(g)) == g
  {
    match g
    case Line(pts) =>
      RevRev(pts);
    case MultiLine(ls) =>
      var once := Reverse(g);
      var r := Reverse(once);
      assert |once.lines| == |r.lines| == |ls|;
      forall k | 0 <= k < |ls|
        ensures r.lines[k] == ls[k]
      {
        assert once.lines[|ls| - 1 - k] == Rev(ls[k]);
        assert r.lines[k] == Rev(once.lines[|ls| - 1 - k]);
        RevRev(ls[k]);
      }
      assert r.lines == ls;
  }

  /** The first coordinate of the first component. */
  function FirstCoord(g: Geometry): (r: Coord)
    requires |Components(g)| > 0 && |Components(g)[0]| > 0
  {
    Components(g)[0][0]
  }

  /** The last coordinate of the last component. */
  function LastCoord(g: Geometry): (r: Coord)
    requires |Components(g)| > 0 && |Components(g)[|Components(g)| - 1]| > 0
  {
    var last := Components(g)[|Components(g)| - 1];
    last[|last| - 1]
  }

  /** Reversal swaps the first and last coordinate of a geometry. */
  lemma ReverseSwapsEnds(g: Geometry)
    requires |Components(g)| > 0
    requires NoEmptyComponent(g)
    ensures |Components(Reverse(g))| > 0
    ensures NoEmptyComponent(Reverse(g))
    ensures FirstCoord(Reverse(g)) == LastCoord(g)
    ensures LastCoord(Reverse(g)) == FirstCoord(g)
  {
  }

  /**
   `r` is a non-empty geometry whose components each have at least two
   points, running from `a` to `b`.
   */
  predicate RunsBetween(r: Geometry, a: Coord, b: Coord) {
    && |Components(r)| > 0
    && LongComponents(r)
    && FirstCoord(r) == a
    && LastCoord(r) == b
  }

  /** Every component has at least two points, so each is a valid line. */
  predicate LongComponents(r: Geometry) {
    forall k :: 0 <= k < |Components(r)| ==> |Components(r)[k]| >= 2
  }

  /** Reversal keeps every component at least two points long. */
  lemma ReverseKeepsLongComponents(r: Geometry)
    requires LongComponents(r)
    ensures LongComponents(Reverse(r))
  {
    var n := |Components(r)|;
    forall k | 0 <= k < n ensures |Components(Reverse(r))[k]| >= 2 {
      assert |Components(r)[n - 1 - k]| >= 2;
    }
  }

  /** Reversing a geometry that runs from `a` to `b` gives one that runs from `b` to `a`. */
  lemma ReverseRunsBetween(r: Geometry, a: Coord, b: Coord)
    requires RunsBetween(r, a, b)
    ensures RunsBetween(Reverse(r), b, a)
  {
    ReverseSwapsEnds(r);
    ReverseKeepsLongComponents(r);
  }

  /**
   The geometry the factory builds from a list of parts: a line for one part,
   a multi-line for several, and no linear geometry (an empty collection) for none.
   */
  function BuildGeometry(parts: seq<seq<Coord>>): (r: Option<Geometry>)
    ensures r.Some? <==> |parts| > 0
    ensures r.Some? ==> Components(r.value) == parts
    ensures r.Some? ==> (r.value.Line? <==> |parts| == 1)
  {
    if |parts| == 0 then None
    else if |parts| == 1 then Some(Line(parts[0]))
    else Some(MultiLine(parts))
  }
}

=== FILE: linear_extraction.dfy ===
/**
 The general (multi-component) extraction path.

 A line builder with the fix-invalid-lines option is fed, in order: the
 start's interpolated point when the start is not on a vertex; every vertex
 of the traversal started at the start, stopping before the first vertex
 that lies after the end, and closing the open output line after the last
 vertex of each source component; and the end's interpolated point when the
 end is not on a vertex. The finished lines become a line (one part), a
 multi-line (several parts), or no linear geometry at all (no part).

 Every point handed to the builder is tagged with where it came from. The
 builder never looks at the tag and the tags are dropped before the geometry
 is built; they only let the properties below speak about provenance.
 */
module LinearExtraction {
  import opened Options
  import opened Locations
  import opened Geometries
  import opened Traversal
  import opened LineBuilder

  datatype Source = AtStart | AtEnd | AtVertex(component: nat, index: nat)

  datatype Point = Point(coord: Coord, source: Source)

  function VertexPoint(v: Vertex): (r: Point) {
    Point(v.pt, AtVertex(v.component, v.index))
  }

  /** The vertex lies strictly after `end` (compared at fraction 0). */
  predicate PastEnd(v: Vertex, end: Location) {
    CompareLocationValues(end, v.component, v.index, 0.0) < 0
  }

  /** The number of vertices the loop consumes before it stops: up to the first vertex past `end`. */
  function StopIndex(vs: seq<Vertex>, end: Location): (k: nat)
    ensures k <= |vs|
    ensures forall i :: 0 <= i < k ==> !PastEnd(vs[i], end)
    ensures k < |vs| ==> PastEnd(vs[k], end)
    decreases |vs|
  {
    if |vs| == 0 || PastEnd(vs[0], end) then 0 else 1 + StopIndex(vs[1..], end)
  }

  /**
   One pass of the traversal loop: the vertex is added, and the open line is
   closed when the vertex ends its component.
   */
  function Step(b: Builder<Point>, v: Vertex): (r: Builder<Point>)
    requires Valid(b)
    ensures Valid(r) && r.fixInvalidLines == b.fixInvalidLines && HasPoints(r)
    ensures Points(r) == Points(b) + {VertexPoint(v)}
    ensures LastPoint(r) == VertexPoint(v)
    ensures FirstPoint(r) == if HasPoints(b) then FirstPoint(b) else VertexPoint(v)
    ensures r.Idle? <==> v.endOfLine
  {
    var added := Add(b, VertexPoint(v));
    if v.endOfLine then EndLine(added) else added
  }

  /**
   The traversal loop: each vertex not past `end` is passed to `Step`, and
   the loop stops at the first vertex past `end`.
   */
  function Visit(b: Builder<Point>, vs: seq<Vertex>, end: Location): (r: Builder<Point>)
    requires Valid(b)
    ensures Valid(r) && r.fixInvalidLines == b.fixInvalidLines
    decreases |vs|
  {
    if |vs| == 0 || PastEnd(vs[0], end) then b
    else Visit(Step(b, vs[0]), vs[1..], end)
  }

  /** The vertex points of a run of vertices. */
  ghost function VertexPoints(vs: seq<Vertex>): (r: set<Point>) {
    set v | v in vs :: VertexPoint(v)
  }

  lemma VertexPointsCons(vs: seq<Vertex>)
    requires |vs| > 0
    ensures VertexPoints(vs) == {VertexPoint(vs[0])} + VertexPoints(vs[1..])
  {
    assert vs == [vs[0]] + vs[1..];
    forall v ensures v in vs <==> v == vs[0] || v in vs[1..] {}
  }

  lemma PrefixVertexPoints(vs: seq<Vertex>, k: nat)
    requires 0 < k <= |vs|
    ensures VertexPoints(vs[..k]) == {VertexPoint(vs[0])} + VertexPoints(vs[1..][..k - 1])
  {
    assert vs[1..][..k - 1] == vs[..k][1..];
    VertexPointsCons(vs[..k]);
  }

  /** The loop adds exactly the vertices before the stop, and nothing else. */
  lemma {:induction false} VisitAddsVerticesBeforeStop(b: Builder<Point>, vs: seq<Vertex>, end: Location)
    requires Valid(b)
    ensures Points(Visit(b, vs, end)) == Points(b) + VertexPoints(vs[..StopIndex(vs, end)])
    decreases |vs|
  {
    var k := StopIndex(vs, end);
    if |vs| > 0 && !PastEnd(vs[0], end) {
      assert StopIndex(vs[1..], end) == k - 1;
      VisitAddsVerticesBeforeStop(Step(b, vs[0]), vs[1..], end);
      PrefixVertexPoints(vs, k);
    } else {
      assert vs[..k] == [];
    }
  }

  /** The loop keeps the first point, or makes the first vertex the first point when there was none. */
  lemma {:induction false} VisitKeepsFirst(b: Builder<Point>, vs: seq<Vertex>, end: Location)
    requires Valid(b)
    ensures var r := Visit(b, vs, end);
      && (HasPoints(r) <==> HasPoints(b) || StopIndex(vs, end) > 0)
      && (HasPoints(b) ==> FirstPoint(r) == FirstPoint(b))
      && (!HasPoints(b) && StopIndex(vs, end) > 0 ==> FirstPoint(r) == VertexPoint(vs[0]))
    decreases |vs|
  {
    if |vs| > 0 && !PastEnd(vs[0], end) {
      VisitKeepsFirst(Step(b, vs[0]), vs[1..], end);
    }
  }

  /** The loop's last point is the last vertex it consumes; consuming none changes nothing. */
  lemma {:induction false} VisitLast(b: Builder<Point>, vs: seq<Vertex>, end: Location)
    requires Valid(b)
    ensures var r := Visit(b, vs, end);
      && (StopIndex(vs, end) > 0 ==> HasPoints(r) && LastPoint(r) == VertexPoint(vs[StopIndex(vs, end) - 1]))
      && (StopIndex(vs, end) == 0 ==> r == b)
    decreases |vs|
  {
    if |vs| > 0 && !PastEnd(vs[0], end) {
      VisitLast(Step(b, vs[0]), vs[1..], end);
    }
  }

  /**
   The first point is kept, or is the first vertex when there was none; the
   last point is the last vertex added.
   */
  lemma VisitEnds(b: Builder<Point>, vs: seq<Vertex>, end: Location)
    requires Valid(b)
    ensures var r := Visit(b, vs, end);
      && (HasPoints(r) <==> HasPoints(b) || StopIndex(vs, end) > 0)
      && (HasPoints(b) ==> FirstPoint(r) == FirstPoint(b))
      && (!HasPoints(b) && StopIndex(vs, end) > 0 ==> FirstPoint(r) == VertexPoint(vs[0]))
      && (StopIndex(vs, end) > 0 ==> LastPoint(r) == VertexPoint(vs[StopIndex(vs, end) - 1]))
      && (StopIndex(vs, end) == 0 ==> r == b)
  {
    VisitKeepsFirst(b, vs, end);
    VisitLast(b, vs, end);
  }

  /** With the fix option, every line the loop closes has at least two points. */
  lemma {:induction false} VisitKeepsLinesLong(b: Builder<Point>, vs: seq<Vertex>, end: Location)
    requires Valid(b) && b.fixInvalidLines && AllLong(b.lines)
    ensures AllLong(Visit(b, vs, end).lines)
    decreases |vs|
  {
    if |vs| > 0 && !PastEnd(vs[0], end) {
      var added := Add(b, VertexPoint(vs[0]));
      assert Step(b, vs[0]) == if vs[0].endOfLine then EndLine(added) else added;
      VisitKeepsLinesLong(Step(b, vs[0]), vs[1..], end);
    }
  }

  /** All vertex points of a line come from one source component. */
  predicate SingleComponent(part: seq<Point>) {
    forall p, q :: p in part && q in part && p.source.AtVertex? && q.source.AtVertex?
      ==> p.source.component == q.source.component
  }

  /** Every finished line, and the open line, holds vertex points of one component only. */
  predicate LinesApart(b: Builder<Point>) {
    && (forall part :: part in b.lines ==> SingleComponent(part))
    && (b.Accumulating? ==> SingleComponent(b.current))
  }

  /** Adding a point that is not a source vertex keeps the lines apart. */
  lemma AddNonVertexKeepsApart(b: Builder<Point>, p: Point)
    requires Valid(b) && LinesApart(b) && !p.source.AtVertex?
    ensures LinesApart(Add(b, p))
  {
    var r := Add(b, p);
    assert forall q :: q in r.current ==> q == p || (b.Accumulating? && q in b.current);
  }

  /** The open line's vertex points, if any, belong to the component of the next vertex. */
  predicate OpenLineFits(b: Builder<Point>, vs: seq<Vertex>) {
    b.Accumulating? ==>
      && SingleComponent(b.current)
      && (|vs| > 0 ==> forall p :: p in b.current && p.source.AtVertex? ==> p.source.component == vs[0].component)
  }

  /**
   Along a chained run of vertices the loop never puts vertices of two
   source components into one line: every line it closes, and the line left
   open, holds vertex points of a single component.
   */
  lemma {:induction false} VisitKeepsComponentsApart(b: Builder<Point>, vs: seq<Vertex>, end: Location)
    requires Valid(b) && Chained(vs)
    requires forall part :: part in b.lines ==> SingleComponent(part)
    requires OpenLineFits(b, vs)
    ensures LinesApart(Visit(b, vs, end))
    decreases |vs|
  {
    if |vs| > 0 && !PastEnd(vs[0], end) {
      var p0 := VertexPoint(vs[0]);
      var added := Add(b, p0);
      assert forall p :: p in added.current ==> p == p0 || (b.Accumulating? && p in b.current);
      assert forall p :: p in added.current && p.source.AtVertex? ==> p.source.component == vs[0].component;
      var next := Step(b, vs[0]);
      assert next == if vs[0].endOfLine then EndLine(added) else added;
      if vs[0].endOfLine {
        var closed := Closed(added.fixInvalidLines, added.current);
        assert next.lines == b.lines + [closed];
        assert SingleComponent(closed);
        assert forall part :: part in next.lines ==> part in b.lines || part == closed;
      } else {
        assert |vs| > 1 ==> vs[1].component == vs[0].component;
      }
      assert Chained(vs[1..]);
      VisitKeepsComponentsApart(next, vs[1..], end);
    }
  }

  /** All vertex points of the geometry's vertices that lie between `start` and `end` inclusive. */
  ghost function VertexPointsBetween(g: Geometry, start: Location, end: Location): (r: set<Point>) {
    var comps := Components(g);
    set c: nat, i: nat | c < |comps| && i < |comps[c]|
                         && !Before(Location(c, i, 0.0), start) && !Before(end, Location(c, i, 0.0))
      :: Point(comps[c][i], AtVertex(c, i))
  }

  /** The builder after the start's interpolated point. */
  function BuilderAfterStart(g: Geometry, start: Location): (b: Builder<Point>)
    requires ValidStart(g, start)
    ensures Valid(b) && b.fixInvalidLines && b.lines == []
    ensures b.Accumulating? <==> !IsVertex(start)
    ensures b.Accumulating? ==> b.current == [Point(Coordinate(g, start), AtStart)]
  {
    var b0 := New<Point>(true);
    if !IsVertex(start) then Add(b0, Point(Coordinate(g, start), AtStart)) else b0
  }

  /** The builder after the traversal loop. */
  function BuilderAfterLoop(g: Geometry, start: Location, end: Location): (b: Builder<Point>)
    requires ValidStart(g, start)
    ensures Valid(b) && b.fixInvalidLines
  {
    Visit(BuilderAfterStart(g, start), Traverse(g, start), end)
  }

  /** The builder after the end's interpolated point. */
  function BuilderAfterEnd(g: Geometry, start: Location, end: Location): (b: Builder<Point>)
    requires ValidStart(g, start) && ValidLocation(g, end)
    ensures Valid(b) && b.fixInvalidLines
  {
    var b2 := BuilderAfterLoop(g, start, end);
    if !IsVertex(end) then Add(b2, Point(Coordinate(g, end), AtEnd)) else b2
  }

  /** The output lines, still tagged with their provenance. */
  function ComputeLinearParts(g: Geometry, start: Location, end: Location): (parts: seq<seq<Point>>)
    requires ValidStart(g, start) && ValidLocation(g, end)
  {
    Finish(BuilderAfterEnd(g, start, end))
  }

  /** The coordinates of a tagged line. */
  function Coords(part: seq<Point>): (r: seq<Coord>)
    ensures |r| == |part|
    ensures forall k :: 0 <= k < |part| ==> r[k] == part[k].coord
  {
    seq(|part|, k requires 0 <= k < |part| => part[k].coord)
  }

  /** The coordinates of tagged lines, line by line. */
  function Stripped(parts: seq<seq<Point>>): (r: seq<seq<Coord>>)
    ensures |r| == |parts|
    ensures forall k :: 0 <= k < |parts| ==> r[k] == Coords(parts[k])
  {
    seq(|parts|, k requires 0 <= k < |parts| => Coords(parts[k]))
  }

  /** The extracted geometry between `start` and `end`, read in the source's direction. */
  function ComputeLinear(g: Geometry, start: Location, end: Location): (r: Option<Geometry>)
    requires ValidStart(g, start) && ValidLocation(g, end)
  {
    BuildGeometry(Stripped(ComputeLinearParts(g, start, end)))
  }

  /** The start's interpolated point, when the start is not on a vertex. */
  function StartPoints(g: Geometry, start: Location): (r: set<Point>)
    requires ValidStart(g, start)
  {
    if IsVertex(start) then {} else {Point(Coordinate(g, start), AtStart)}
  }

  /** The end's interpolated point, when the end is not on a vertex. */
  function EndPoints(g: Geometry, end: Location): (r: set<Point>)
    requires ValidLocation(g, end)
  {
    if IsVertex(end) then {} else {Point(Coordinate(g, end), AtEnd)}
  }

  /**
   On an ascending run, the vertices consumed before the stop are exactly
   the vertices of the run that do not lie after `end`.
   */
  lemma StopIndexSplitsAtEnd(vs: seq<Vertex>, end: Location)
    requires Ascending(vs)
    ensures forall v :: v in vs[..StopIndex(vs, end)] <==> v in vs && !PastEnd(v, end)
  {
    var k := StopIndex(vs, end);
    forall v | v in vs && !PastEnd(v, end)
      ensures v in vs[..k]
    {
      var j :| 0 <= j < |vs| && vs[j] == v;
      assert vs[..k][j] == v;
    }
  }

  /** Every vertex the loop adds lies between `start` and `end`. */
  lemma LoopVerticesAreBetween(g: Geometry, start: Location, end: Location)
    requires ValidStart(g, start)
    ensures var vs := Traverse(g, start);
      VertexPoints(vs[..StopIndex(vs, end)]) <= VertexPointsBetween(g, start, end)
  {
    var vs := Traverse(g, start);
    var k := StopIndex(vs, end);
    var comps := Components(g);
    StopIndexSplitsAtEnd(vs, end);
    forall p | p in VertexPoints(vs[..k])
      ensures p in VertexPointsBetween(g, start, end)
    {
      var v :| v in vs[..k] && p == VertexPoint(v);
      assert IsVertexOf(comps, v) && !Before(LocationOf(v), start) && !PastEnd(v, end);
    }
  }

  /** Every vertex between `start` and `end` is added by the loop. */
  lemma BetweenVerticesAreLooped(g: Geometry, start: Location, end: Location)
    requires ValidStart(g, start)
    ensures var vs := Traverse(g, start);
      VertexPointsBetween(g, start, end) <= VertexPoints(vs[..StopIndex(vs, end)])
  {
    var vs := Traverse(g, start);
    var k := StopIndex(vs, end);
    var comps := Components(g);
    StopIndexSplitsAtEnd(vs, end);
    forall p | p in VertexPointsBetween(g, start, end)
      ensures p in VertexPoints(vs[..k])
    {
      var c: nat, i: nat :| c < |comps| && i < |comps[c]|
        && !Before(Location(c, i, 0.0), start) && !Before(end, Location(c, i, 0.0))
        && p == Point(comps[c][i], AtVertex(c, i));
      var v := Vertex(c, i, comps[c][i], i == |comps[c]| - 1);
      assert IsVertexOf(comps, v) && LocationOf(v) == Location(c, i, 0.0);
      assert v in vs;
      assert v in vs[..k];
    }
  }

  /** The vertices the loop adds are exactly the vertices between `start` and `end`. */
  lemma LoopAddsVerticesBetween(g: Geometry, start: Location, end: Location)
    requires ValidStart(g, start)
    ensures var vs := Traverse(g, start);
      VertexPoints(vs[..StopIndex(vs, end)]) == VertexPointsBetween(g, start, end)
  {
    LoopVerticesAreBetween(g, start, end);
    BetweenVerticesAreLooped(g, start, end);
  }


  /**
   The output holds exactly: the start's interpolated point when the start is
   not a vertex, every source vertex lying between `start` and `end`
   inclusive, and the end's interpolated point when the end is not a vertex.
   */
  lemma ComputeLinearPoints(g: Geometry, start: Location, end: Location)
    requires ValidStart(g, start) && ValidLocation(g, end)
    ensures LinePoints(ComputeLinearParts(g, start, end))
      == StartPoints(g, start) + VertexPointsBetween(g, start, end) + EndPoints(g, end)
  {
    var b1 := BuilderAfterStart(g, start);
    assert Points(b1) == StartPoints(g, start);
    VisitAddsVerticesBeforeStop(b1, Traverse(g, start), end);
    LoopAddsVerticesBetween(g, start, end);
  }

  /** Every output line has at least two points. */
  lemma ComputeLinearPartsHaveTwoPoints(g: Geometry, start: Location, end: Location)
    requires ValidStart(g, start) && ValidLocation(g, end)
    ensures forall part :: part in ComputeLinearParts(g, start, end) ==> |part| >= 2
  {
    var b1 := BuilderAfterStart(g, start);
    VisitKeepsLinesLong(b1, Traverse(g, start), end);
    assert AllLong(BuilderAfterEnd(g, start, end).lines);
  }

  /** After the loop, every closed line and the open line are single-component. */
  lemma LoopKeepsComponentsApart(g: Geometry, start: Location, end: Location)
    requires ValidStart(g, start)
    ensures LinesApart(BuilderAfterLoop(g, start, end))
  {
    var b1 := BuilderAfterStart(g, start);
    var vs := Traverse(g, start);
    LoneStartFits(b1, vs);
    VisitKeepsComponentsApart(b1, vs, end);
  }

  /** An open line holding one non-vertex point fits any traversal. */
  lemma LoneStartFits(b: Builder<Point>, vs: seq<Vertex>)
    requires b.Accumulating? ==> |b.current| == 1 && !b.current[0].source.AtVertex?
    ensures OpenLineFits(b, vs)
  {
    if b.Accumulating? {
      assert forall p :: p in b.current ==> p == b.current[0];
    }
  }

  /** Adding the end's point keeps every line single-component. */
  lemma EndKeepsComponentsApart(g: Geometry, start: Location, end: Location)
    requires ValidStart(g, start) && ValidLocation(g, end)
    ensures LinesApart(BuilderAfterEnd(g, start, end))
  {
    LoopKeepsComponentsApart(g, start, end);
    if !IsVertex(end) {
      AddNonVertexKeepsApart(BuilderAfterLoop(g, start, end), Point(Coordinate(g, end), AtEnd));
    }
  }

  /** No output line holds vertices of two different source components. */
  lemma ComputeLinearKeepsComponentsApart(g: Geometry, start: Location, end: Location)
    requires ValidStart(g, start) && ValidLocation(g, end)
    ensures forall part :: part in ComputeLinearParts(g, start, end) ==> SingleComponent(part)
  {
    var b3 := BuilderAfterEnd(g, start, end);
    EndKeepsComponentsApart(g, start, end);
    if b3.Accumulating? {
      var closed := Closed(b3.fixInvalidLines, b3.current);
      assert SingleComponent(closed);
      assert Finish(b3) == b3.lines + [closed];
      assert forall part :: part in Finish(b3) ==> part in b3.lines || part == closed;
    }
  }

  /**
   The source component a tagged point lies on: the start's component for the
   start's point, the end's component for the end's point.
   */
  function SourceComponent(p: Point, start: Location, end: Location): (c: nat)
    ensures p.source.AtVertex? ==> c == p.source.component
  {
    match p.source
    case AtStart => start.component
    case AtEnd => end.component
    case AtVertex(c, _) => c
  }

  /** Every point of `part` lies on source component `c`. */
  predicate OnComponent(part: seq<Point>, c: nat, start: Location, end: Location) {
    forall p :: p in part ==> SourceComponent(p, start, end) == c
  }

  /** All points of `part` lie on one source component. */
  predicate OnOneComponent(part: seq<Point>, start: Location, end: Location) {
    forall p, q :: p in part && q in part ==> SourceComponent(p, start, end) == SourceComponent(q, start, end)
  }

  /** One loop pass keeps every closed line on one component; the open line is on the vertex's component. */
  lemma StepStaysOnComponents(b: Builder<Point>, v: Vertex, start: Location, end: Location)
    requires Valid(b)
    requires forall part :: part in b.lines ==> OnOneComponent(part, start, end)
    requires b.Accumulating? ==> OnComponent(b.current, v.component, start, end)
    ensures var next := Step(b, v);
      && (forall part :: part in next.lines ==> OnOneComponent(part, start, end))
      && (next.Accumulating? ==> OnComponent(next.current, v.component, start, end))
  {
    var added := Add(b, VertexPoint(v));
    assert forall p :: p in added.current ==> p == VertexPoint(v) || (b.Accumulating? && p in b.current);
    if v.endOfLine {
      var closed := Closed(added.fixInvalidLines, added.current);
      assert EndLine(added).lines == b.lines + [closed];
      assert forall part :: part in EndLine(added).lines ==> part in b.lines || part == closed;
    }
  }

  /**
   Along a chained run of vertices, every line the loop closes lies on one
   source component, and the line left open lies on the component of the
   last vertex consumed (on `k`, the open line's component, when none is
   consumed); it is left open only after a vertex that does not end its
   component.
   */
  lemma {:induction false} VisitStaysOnComponents(b: Builder<Point>, vs: seq<Vertex>, start: Location, end: Location, k: nat)
    requires Valid(b) && Chained(vs)
    requires forall part :: part in b.lines ==> OnOneComponent(part, start, end)
    requires b.Accumulating? ==> OnComponent(b.current, k, start, end)
    requires b.Accumulating? && |vs| > 0 && !PastEnd(vs[0], end) ==> vs[0].component == k
    ensures var r := Visit(b, vs, end);
      var n := StopIndex(vs, end);
      && (forall part :: part in r.lines ==> OnOneComponent(part, start, end))
      && (r.Accumulating? ==> OnComponent(r.current, if n == 0 then k else vs[n - 1].component, start, end))
      && (r.Accumulating? && n > 0 ==> !vs[n - 1].endOfLine)
    decreases |vs|
  {
    if |vs| > 0 && !PastEnd(vs[0], end) {
      var v := vs[0];
      StepStaysOnComponents(b, v, start, end);
      var next := Step(b, v);
      assert Chained(vs[1..]);
      assert next.Accumulating? && |vs| > 1 ==> vs[1].component == v.component;
      assert StopIndex(vs[1..], end) == StopIndex(vs, end) - 1;
      VisitStaysOnComponents(next, vs[1..], start, end, v.component);
    }
  }

  /**
   On an ascending chained run, when the last vertex consumed does not end its
   component and a later vertex follows it, the end lies on that vertex's
   component: the next vertex of the run is of the same component and lies
   past the end.
   */
  lemma OpenRunMeetsEnd(vs: seq<Vertex>, end: Location, w: Vertex)
    requires Ascending(vs) && Chained(vs)
    requires 0 < StopIndex(vs, end) && !vs[StopIndex(vs, end) - 1].endOfLine
    requires w in vs && PositionLess(vs[StopIndex(vs, end) - 1], w)
    ensures vs[StopIndex(vs, end) - 1].component == end.component
  {
    var n := StopIndex(vs, end);
    var j :| 0 <= j < |vs| && vs[j] == w;
    if j <= n - 1 {
      assert false;
    }
    assert vs[n].component == vs[n - 1].component;
    assert PastEnd(vs[n], end) && !PastEnd(vs[n - 1], end);
  }

  /**
   When the loop leaves a line open after a vertex `v` that does not end its
   component, the end lies on `v`'s component: the next vertex of that
   component lies past the end.
   */
  lemma OpenAfterVertexMeetsEnd(g: Geometry, start: Location, end: Location)
    requires ValidStart(g, start) && ValidLocation(g, end)
    ensures var vs := Traverse(g, start);
      var n := StopIndex(vs, end);
      n > 0 && !vs[n - 1].endOfLine ==> vs[n - 1].component == end.component
  {
    var vs := Traverse(g, start);
    var n := StopIndex(vs, end);
    if n > 0 && !vs[n - 1].endOfLine {
      var v := vs[n - 1];
      var w := NextVertex(Components(g), v);
      assert v in vs;
      BeforeIsStrictTotalOrder(start, LocationOf(v), LocationOf(w));
      assert w in vs;
      OpenRunMeetsEnd(vs, end, w);
    }
  }

  /** The vertex after `v` in its component. */
  function NextVertex(comps: seq<seq<Coord>>, v: Vertex): (w: Vertex)
    requires IsVertexOf(comps, v) && !v.endOfLine
    ensures IsVertexOf(comps, w) && PositionLess(v, w)
    ensures w.component == v.component && w.index == v.index + 1
  {
    var pts := comps[v.component];
    Vertex(v.component, v.index + 1, pts[v.index + 1], v.index + 1 == |pts| - 1)
  }

  /**
   When the loop consumes no vertex and the start's point is open, the end
   lies on the start's component.
   */
  lemma OpenStartMeetsEnd(g: Geometry, start: Location, end: Location)
    requires ValidStart(g, start) && ValidLocation(g, end) && !Before(end, start)
    requires !IsVertex(start)
    ensures var vs := Traverse(g, start);
      StopIndex(vs, end) == 0 ==> start.component == end.component
  {
    var vs := Traverse(g, start);
    CompareToAntisymmetric(start, end);
    if StopIndex(vs, end) == 0 && VertexIndexAtOrAfter(start) < |Components(g)[start.component]| {
      assert PastEnd(vs[0], end);
    }
  }

  /** When the start is not a vertex, the traversal's first vertex, if any, is on the start's component. */
  lemma FirstVertexOnStartComponent(g: Geometry, start: Location)
    requires ValidStart(g, start)
    ensures var vs := Traverse(g, start);
      !IsVertex(start) && |vs| > 0 ==> vs[0].component == start.component
  {
    var vs := Traverse(g, start);
    if |vs| > 0 {
      assert vs[0] in vs;
    }
  }

  /** After the loop, closed lines lie on one component and the open line on the end's component. */
  lemma LoopStaysOnComponents(g: Geometry, start: Location, end: Location)
    requires ValidStart(g, start) && ValidLocation(g, end) && !Before(end, start)
    ensures var b2 := BuilderAfterLoop(g, start, end);
      && (forall part :: part in b2.lines ==> OnOneComponent(part, start, end))
      && (b2.Accumulating? ==> OnComponent(b2.current, end.component, start, end))
  {
    LoopStartFacts(g, start, end);
    VisitFromStartStays(BuilderAfterStart(g, start), Traverse(g, start), start, end);
  }

  /**
   How the loop begins when start is not after end: a line opened at the start continues on the start's
   component, a line still open when the loop stops is on the end's component, and a loop that adds no
   vertex leaves an open line only when both locations share a component.
   */
  predicate StartMeetsEnd(b: Builder<Point>, vs: seq<Vertex>, start: Location, end: Location) {
    OpenFromStart(b, vs, start, end) && OpenToEnd(b, vs, start, end)
  }

  /** A line opened at the start lies, with the first vertex the loop adds to it, on the start's component. */
  predicate OpenFromStart(b: Builder<Point>, vs: seq<Vertex>, start: Location, end: Location) {
    && (b.Accumulating? ==> OnComponent(b.current, start.component, start, end))
    && (b.Accumulating? && |vs| > 0 && !PastEnd(vs[0], end) ==> vs[0].component == start.component)
  }

  /** A line the loop leaves open lies on the end's component. */
  predicate OpenToEnd(b: Builder<Point>, vs: seq<Vertex>, start: Location, end: Location) {
    var n := StopIndex(vs, end);
    && (n > 0 && !vs[n - 1].endOfLine ==> vs[n - 1].component == end.component)
    && (b.Accumulating? && n == 0 ==> start.component == end.component)
  }

  /** The loop from a fresh builder keeps every line, the open one included, on its component. */
  lemma VisitFromStartStays(b: Builder<Point>, vs: seq<Vertex>, start: Location, end: Location)
    requires Valid(b) && Chained(vs) && b.lines == []
    requires StartMeetsEnd(b, vs, start, end)
    ensures var r := Visit(b, vs, end);
      && (forall part :: part in r.lines ==> OnOneComponent(part, start, end))
      && (r.Accumulating? ==> OnComponent(r.current, end.component, start, end))
  {
    VisitStaysOnComponents(b, vs, start, end, start.component);
    VisitIdleWhenStoppedAtOnce(b, vs, end);
    OpenLineOnEndComponent(Visit(b, vs, end), vs, StopIndex(vs, end), start.component, end.component, start, end);
  }

  /** The facts about the loop's beginning, for valid locations with start not after end. */
  lemma LoopStartFacts(g: Geometry, start: Location, end: Location)
    requires ValidStart(g, start) && ValidLocation(g, end) && !Before(end, start)
    ensures StartMeetsEnd(BuilderAfterStart(g, start), Traverse(g, start), start, end)
  {
    LoopOpensFromStart(g, start, end);
    LoopOpensToEnd(g, start, end);
  }

  /** The loop's beginning seen from the start. */
  lemma LoopOpensFromStart(g: Geometry, start: Location, end: Location)
    requires ValidStart(g, start)
    ensures OpenFromStart(BuilderAfterStart(g, start), Traverse(g, start), start, end)
  {
    FirstVertexOnStartComponent(g, start);
  }

  /** The loop's beginning seen from the end. */
  lemma LoopOpensToEnd(g: Geometry, start: Location, end: Location)
    requires ValidStart(g, start) && ValidLocation(g, end) && !Before(end, start)
    ensures OpenToEnd(BuilderAfterStart(g, start), Traverse(g, start), start, end)
  {
    OpenAfterVertexMeetsEnd(g, start, end);
    if !IsVertex(start) {
      OpenStartMeetsEnd(g, start, end);
    }
  }

  /** A traversal stopped before its first vertex leaves the builder as it was. */
  lemma VisitIdleWhenStoppedAtOnce(b: Builder<Point>, vs: seq<Vertex>, end: Location)
    requires Valid(b)
    ensures StopIndex(vs, end) == 0 ==> Visit(b, vs, end) == b
  {
  }

  /** The open line lies on the end's component once both ways it can be open lead there. */
  lemma OpenLineOnEndComponent(r: Builder<Point>, vs: seq<Vertex>, n: nat, k: nat, c: nat, start: Location, end: Location)
    requires n <= |vs|
    requires r.Accumulating? ==> OnComponent(r.current, if n == 0 then k else vs[n - 1].component, start, end)
    requires r.Accumulating? && n > 0 ==> !vs[n - 1].endOfLine
    requires n > 0 && !vs[n - 1].endOfLine ==> vs[n - 1].component == c
    requires r.Accumulating? && n == 0 ==> k == c
    ensures r.Accumulating? ==> OnComponent(r.current, c, start, end)
  {
  }

  /**
   For start not after end, every output line lies on one source component,
   counting the start's point on the start's component and the end's point on
   the end's: no line, interpolated points included, crosses the gap between
   two components.
   */
  lemma ComputeLinearStaysOnOneComponent(g: Geometry, start: Location, end: Location)
    requires ValidStart(g, start) && ValidLocation(g, end) && !Before(end, start)
    ensures forall part :: part in ComputeLinearParts(g, start, end) ==> OnOneComponent(part, start, end)
  {
    var b2 := BuilderAfterLoop(g, start, end);
    LoopStaysOnComponents(g, start, end);
    if !IsVertex(end) {
      AddStaysOnComponent(b2, Point(Coordinate(g, end), AtEnd), end.component, start, end);
    }
    FinishStaysOnComponents(BuilderAfterEnd(g, start, end), end.component, start, end);
  }

  /** Adding a point of component `c` to an idle builder or to an open line on `c` keeps it on `c`. */
  lemma AddStaysOnComponent(b: Builder<Point>, x: Point, c: nat, start: Location, end: Location)
    requires Valid(b) && SourceComponent(x, start, end) == c
    requires b.Accumulating? ==> OnComponent(b.current, c, start, end)
    ensures OnComponent(Add(b, x).current, c, start, end)
  {
    var r := Add(b, x);
    assert forall p :: p in r.current ==> p == x || (b.Accumulating? && p in b.current);
  }

  /** Finishing keeps every line on one component when the open line is on one. */
  lemma FinishStaysOnComponents(b: Builder<Point>, c: nat, start: Location, end: Location)
    requires Valid(b)
    requires forall part :: part in b.lines ==> OnOneComponent(part, start, end)
    requires b.Accumulating? ==> OnComponent(b.current, c, start, end)
    ensures forall part :: part in Finish(b) ==> OnOneComponent(part, start, end)
  {
    if b.Accumulating? {
      var closed := Closed(b.fixInvalidLines, b.current);
      assert Finish(b) == b.lines + [closed];
      assert forall part :: part in Finish(b) ==> part in b.lines || part == closed;
    }
  }

  /** `p` and `q` are vertex points and `p`'s vertex comes strictly first in (component, index) order. */
  predicate VertexBefore(p: Point, q: Point) {
    && p.source.AtVertex? && q.source.AtVertex?
    && (p.source.component < q.source.component
        || (p.source.component == q.source.component && p.source.index < q.source.index))
  }

  /** The vertex points of `part` are strictly ascending, so none occurs twice. */
  predicate StrictVertices(part: seq<Point>) {
    forall i, j :: 0 <= i < j < |part| && part[i].source.AtVertex? && part[j].source.AtVertex?
      ==> VertexBefore(part[i], part[j])
  }

  /** A two-point line repeating one point, as the fix option closes a one-point line. */
  predicate Doubled(part: seq<Point>) {
    |part| == 2 && part[0] == part[1]
  }

  /** Every vertex point of `a` comes strictly before every vertex point of `c`. */
  predicate VerticesPrecede(a: seq<Point>, c: seq<Point>) {
    forall p, q :: p in a && q in c && p.source.AtVertex? && q.source.AtVertex? ==> VertexBefore(p, q)
  }

  /**
   Every vertex point the builder holds occurs once: each finished line is
   strictly ascending in its vertices (or a fixed one-point line), each
   finished line's vertices precede those of every later line and of the open
   line, and the open line is strictly ascending.
   */
  predicate VerticesOnce(b: Builder<Point>) {
    && (forall k :: 0 <= k < |b.lines| ==> StrictVertices(b.lines[k]) || Doubled(b.lines[k]))
    && (forall k1, k2 :: 0 <= k1 < k2 < |b.lines| ==> VerticesPrecede(b.lines[k1], b.lines[k2]))
    && (b.Accumulating? ==> StrictVertices(b.current))
    && (b.Accumulating? ==> forall k :: 0 <= k < |b.lines| ==> VerticesPrecede(b.lines[k], b.current))
  }

  /** Every vertex point added so far comes strictly before `x` (trivially so when `x` is not a vertex). */
  ghost predicate AllBefore(b: Builder<Point>, x: Point) {
    forall p :: p in Points(b) && p.source.AtVertex? && x.source.AtVertex? ==> VertexBefore(p, x)
  }

  /** Adding a point after every vertex point so far keeps each vertex point once. */
  lemma AddKeepsVerticesOnce(b: Builder<Point>, x: Point)
    requires Valid(b) && VerticesOnce(b) && AllBefore(b, x)
    ensures VerticesOnce(Add(b, x))
  {
    var r := Add(b, x);
    var cur := if b.Accumulating? then b.current else [];
    assert r.current == cur + [x];
    forall p | p in cur ensures p in Points(b) {}
    forall k, p | 0 <= k < |b.lines| && p in b.lines[k] ensures p in Points(b) {
      assert b.lines[k] in b.lines;
    }
    forall i, j | 0 <= i < j < |r.current| && r.current[i].source.AtVertex? && r.current[j].source.AtVertex?
      ensures VertexBefore(r.current[i], r.current[j])
    {
      if j == |cur| {
        assert r.current[i] in cur;
      } else {
        assert r.current[i] == cur[i] && r.current[j] == cur[j];
      }
    }
  }

  /** Closing the open line keeps each vertex point once. */
  lemma EndLineKeepsVerticesOnce(b: Builder<Point>)
    requires Valid(b) && VerticesOnce(b)
    ensures VerticesOnce(EndLine(b))
  {
    if b.Accumulating? {
      var closed := Closed(b.fixInvalidLines, b.current);
      var r := EndLine(b);
      assert r.lines == b.lines + [closed];
      assert StrictVertices(closed) || Doubled(closed);
      forall k | 0 <= k < |b.lines| ensures VerticesPrecede(b.lines[k], closed) {
        assert VerticesPrecede(b.lines[k], b.current);
      }
    }
  }

  /**
   One loop pass keeps each vertex point once, and afterwards every vertex
   point comes before any later vertex.
   */
  lemma StepKeepsVerticesOnce(b: Builder<Point>, v: Vertex, w: Vertex)
    requires Valid(b) && VerticesOnce(b) && AllBefore(b, VertexPoint(v)) && PositionLess(v, w)
    ensures VerticesOnce(Step(b, v)) && AllBefore(Step(b, v), VertexPoint(w))
  {
    var added := Add(b, VertexPoint(v));
    AddKeepsVerticesOnce(b, VertexPoint(v));
    if v.endOfLine {
      EndLineKeepsVerticesOnce(added);
    }
  }

  /** Along an ascending run, the loop adds every vertex point once. */
  lemma {:induction false} VisitKeepsVerticesOnce(b: Builder<Point>, vs: seq<Vertex>, end: Location)
    requires Valid(b) && Ascending(vs) && VerticesOnce(b)
    requires |vs| > 0 ==> AllBefore(b, VertexPoint(vs[0]))
    ensures VerticesOnce(Visit(b, vs, end))
    decreases |vs|
  {
    if |vs| > 0 && !PastEnd(vs[0], end) {
      if |vs| > 1 {
        StepKeepsVerticesOnce(b, vs[0], vs[1]);
      } else {
        var added := Add(b, VertexPoint(vs[0]));
        AddKeepsVerticesOnce(b, VertexPoint(vs[0]));
        if vs[0].endOfLine {
          EndLineKeepsVerticesOnce(added);
        }
      }
      assert vs[1..] == [] || vs[1..][0] == vs[1];
      VisitKeepsVerticesOnce(Step(b, vs[0]), vs[1..], end);
    }
  }

  /** Before the builder is finished, every vertex point it holds occurs once. */
  lemma EndKeepsVerticesOnce(g: Geometry, start: Location, end: Location)
    requires ValidStart(g, start) && ValidLocation(g, end)
    ensures VerticesOnce(BuilderAfterEnd(g, start, end))
  {
    var b2 := BuilderAfterLoop(g, start, end);
    LoopKeepsVerticesOnce(g, start, end);
    if !IsVertex(end) {
      AddKeepsVerticesOnce(b2, Point(Coordinate(g, end), AtEnd));
    }
  }

  /** After the loop, every vertex point the builder holds occurs once. */
  lemma LoopKeepsVerticesOnce(g: Geometry, start: Location, end: Location)
    requires ValidStart(g, start)
    ensures VerticesOnce(BuilderAfterLoop(g, start, end))
  {
    var b1 := BuilderAfterStart(g, start);
    assert Points(b1) == StartPoints(g, start);
    VisitKeepsVerticesOnce(b1, Traverse(g, start), end);
  }

  /**
   Each source vertex occurs once in the output: within a line the vertex
   points are strictly ascending, except in a two-point line repeating a lone
   point (the fix option); and every vertex point of a line comes strictly
   before every vertex point of a later line, so no vertex lies in two lines.
   */
  lemma ComputeLinearAddsEachVertexOnce(g: Geometry, start: Location, end: Location)
    requires ValidStart(g, start) && ValidLocation(g, end)
    ensures var parts := ComputeLinearParts(g, start, end);
      && (forall k :: 0 <= k < |parts| ==> StrictVertices(parts[k]) || Doubled(parts[k]))
      && (forall k1, k2 :: 0 <= k1 < k2 < |parts| ==> VerticesPrecede(parts[k1], parts[k2]))
  {
    var b3 := BuilderAfterEnd(g, start, end);
    EndKeepsVerticesOnce(g, start, end);
    EndLineKeepsVerticesOnce(b3);
  }

  /** No source vertex lies in two output lines. */
  lemma ComputeLinearVertexInOneLine(g: Geometry, start: Location, end: Location)
    requires ValidStart(g, start) && ValidLocation(g, end)
    ensures var parts := ComputeLinearParts(g, start, end);
      forall k1, k2, p: Point ::
        (0 <= k1 < |parts| && 0 <= k2 < |parts| && p in parts[k1] && p in parts[k2] && p.source.AtVertex?)
        ==> k1 == k2
  {
    ComputeLinearAddsEachVertexOnce(g, start, end);
    PrecedingLinesShareNoVertex(ComputeLinearParts(g, start, end));
  }

  /** Lines whose vertices precede those of every later line share no vertex point. */
  lemma PrecedingLinesShareNoVertex(parts: seq<seq<Point>>)
    requires forall k1, k2 :: 0 <= k1 < k2 < |parts| ==> VerticesPrecede(parts[k1], parts[k2])
    ensures forall k1, k2, p: Point ::
      (0 <= k1 < |parts| && 0 <= k2 < |parts| && p in parts[k1] && p in parts[k2] && p.source.AtVertex?)
      ==> k1 == k2
  {
    forall k1, k2, p: Point | 0 <= k1 < |parts| && 0 <= k2 < |parts| && p in parts[k1] && p in parts[k2]
        && p.source.AtVertex?
      ensures k1 == k2
    {
      if k1 != k2 {
        assert false;
      }
    }
  }

  /** The line ends with the last vertex of one of the source components. */
  predicate EndsComponent(comps: seq<seq<Coord>>, part: seq<Point>) {
    && |part| > 0
    && var p := part[|part| - 1];
      && p.source.AtVertex?
      && p.source.component < |comps|
      && p.source.index == |comps[p.source.component]| - 1
  }

  /** Every finished line ends with the last vertex of a source component. */
  predicate ClosedAtComponentEnds(comps: seq<seq<Coord>>, lines: seq<seq<Point>>) {
    forall k :: 0 <= k < |lines| ==> EndsComponent(comps, lines[k])
  }

  /** A loop pass closes a line only after the last vertex of its component. */
  lemma StepClosesAtComponentEnd(comps: seq<seq<Coord>>, b: Builder<Point>, v: Vertex)
    requires Valid(b) && IsVertexOf(comps, v) && ClosedAtComponentEnds(comps, b.lines)
    ensures ClosedAtComponentEnds(comps, Step(b, v).lines)
  {
    var added := Add(b, VertexPoint(v));
    if v.endOfLine {
      var closed := Closed(added.fixInvalidLines, added.current);
      assert added.current[|added.current| - 1] == VertexPoint(v);
      assert closed[|closed| - 1] == VertexPoint(v);
      assert EndLine(added).lines == b.lines + [closed];
    }
  }

  /**
   Along a run of the geometry's vertices, the loop closes a line only after
   the last vertex of a source component.
   */
  lemma {:induction false} VisitClosesAtComponentEnds(comps: seq<seq<Coord>>, b: Builder<Point>, vs: seq<Vertex>, end: Location)
    requires Valid(b) && ClosedAtComponentEnds(comps, b.lines)
    requires forall k :: 0 <= k < |vs| ==> IsVertexOf(comps, vs[k])
    ensures ClosedAtComponentEnds(comps, Visit(b, vs, end).lines)
    decreases |vs|
  {
    if |vs| > 0 && !PastEnd(vs[0], end) {
      StepClosesAtComponentEnd(comps, b, vs[0]);
      assert forall k :: 0 <= k < |vs[1..]| ==> vs[1..][k] == vs[k + 1];
      VisitClosesAtComponentEnds(comps, Step(b, vs[0]), vs[1..], end);
    }
  }

  /** Before the builder is finished, every closed line ends a source component. */
  lemma EndClosesAtComponentEnds(g: Geometry, start: Location, end: Location)
    requires ValidStart(g, start) && ValidLocation(g, end)
    ensures ClosedAtComponentEnds(Components(g), BuilderAfterEnd(g, start, end).lines)
  {
    var vs := Traverse(g, start);
    forall k | 0 <= k < |vs| ensures IsVertexOf(Components(g), vs[k]) {
      assert vs[k] in vs;
    }
    VisitClosesAtComponentEnds(Components(g), BuilderAfterStart(g, start), vs, end);
  }

  /**
   Every output line except the last ends with the last vertex of a source
   component: a line is never broken inside a component, so the lines are
   split exactly where the source's components are.
   */
  lemma ComputeLinearSplitsOnlyAtComponentEnds(g: Geometry, start: Location, end: Location)
    requires ValidStart(g, start) && ValidLocation(g, end)
    ensures var parts := ComputeLinearParts(g, start, end);
      forall k :: 0 <= k < |parts| - 1 ==> EndsComponent(Components(g), parts[k])
  {
    var b3 := BuilderAfterEnd(g, start, end);
    EndClosesAtComponentEnds(g, start, end);
    if b3.Accumulating? {
      assert Finish(b3) == b3.lines + [Closed(b3.fixInvalidLines, b3.current)];
    }
  }

  /** The first point added is the start's point exactly when the start is not a vertex. */
  lemma FirstAddedIsStartIff(g: Geometry, start: Location, end: Location)
    requires ValidStart(g, start) && ValidLocation(g, end)
    ensures var b := BuilderAfterEnd(g, start, end);
      HasPoints(b) ==>
        && (!IsVertex(start) ==> FirstPoint(b) == Point(Coordinate(g, start), AtStart))
        && (IsVertex(start) ==> !FirstPoint(b).source.AtStart?)
  {
    var b := BuilderAfterEnd(g, start, end);
    if HasPoints(b) {
      if !IsVertex(start) {
        VisitEnds(BuilderAfterStart(g, start), Traverse(g, start), end);
      } else {
        EndsAreAdded(b);
        ComputeLinearPoints(g, start, end);
        assert FirstPoint(b) in LinePoints(Finish(b));
      }
    }
  }

  /** The last point added is the end's point exactly when the end is not a vertex. */
  lemma LastAddedIsEndIff(g: Geometry, start: Location, end: Location)
    requires ValidStart(g, start) && ValidLocation(g, end)
    ensures var b := BuilderAfterEnd(g, start, end);
      HasPoints(b) ==>
        && (!IsVertex(end) ==> LastPoint(b) == Point(Coordinate(g, end), AtEnd))
        && (IsVertex(end) ==> !LastPoint(b).source.AtEnd?)
  {
    var b := BuilderAfterEnd(g, start, end);
    if HasPoints(b) && IsVertex(end) {
      EndsAreAdded(b);
      ComputeLinearPoints(g, start, end);
      assert LastPoint(b) in LinePoints(Finish(b));
    }
  }

  /**
   The first output point is the start's interpolated point exactly when the
   start is not a vertex, and the last output point is the end's interpolated
   point exactly when the end is not a vertex.
   */
  lemma ComputeLinearEnds(g: Geometry, start: Location, end: Location)
    requires ValidStart(g, start) && ValidLocation(g, end)
    ensures var parts := ComputeLinearParts(g, start, end);
      |parts| > 0 ==>
        var first := parts[0][0];
        var last := parts[|parts| - 1][|parts[|parts| - 1]| - 1];
        && (!IsVertex(start) ==> first == Point(Coordinate(g, start), AtStart))
        && (IsVertex(start) ==> !first.source.AtStart?)
        && (!IsVertex(end) ==> last == Point(Coordinate(g, end), AtEnd))
        && (IsVertex(end) ==> !last.source.AtEnd?)
  {
    FirstAddedIsStartIff(g, start, end);
    LastAddedIsEndIff(g, start, end);
  }

  /**
   The output is empty (no line at all) exactly when both locations are
   vertices and no source vertex lies between them.
   */
  lemma ComputeLinearEmptyIff(g: Geometry, start: Location, end: Location)
    requires ValidStart(g, start) && ValidLocation(g, end)
    ensures |ComputeLinearParts(g, start, end)| == 0
      <==> IsVertex(start) && IsVertex(end) && VertexPointsBetween(g, start, end) == {}
  {
    var parts := ComputeLinearParts(g, start, end);
    ComputeLinearPoints(g, start, end);
    if |parts| > 0 {
      assert parts[0] in parts && parts[0][0] in parts[0];
      assert parts[0][0] in LinePoints(parts);
    }
  }
}

=== FILE: locations.dfy ===
/**
 Coordinates and linear locations: the value types the extractor reads.

 A linear location addresses a point on a linear geometry by
 (component index, segment index, segment fraction). Locations are totally
 ordered lexicographically on that triple, and a location whose fraction is
 0 (or 1, the far end of its segment) sits exactly on a vertex.
 */
module Locations {

  /** A planar coordinate. The optional z ordinate is not modelled. */
  datatype Coord = Coord(x: real, y: real)

  /** The point a fraction `f` of the way from `p0` to `p1`. */
  function Lerp(p0: Coord, p1: Coord, f: real): (r: Coord)
    ensures f == 0.0 ==> r == p0
    ensures f == 1.0 ==> r == p1
  {
    Coord(p0.x + f * (p1.x - p0.x), p0.y + f * (p1.y - p0.y))
  }

  datatype Location = Location(component: nat, segment: nat, fraction: real)

  /** A location keeps its segment fraction clamped to [0, 1]. */
  predicate WellFormed(loc: Location) {
    0.0 <= loc.fraction <= 1.0
  }

  /** Strict lexicographic order on (component, segment, fraction) triples. */
  predicate TripleLess(c0: nat, s0: nat, f0: real, c1: nat, s1: nat, f1: real) {
    c0 < c1 || (c0 == c1 && (s0 < s1 || (s0 == s1 && f0 < f1)))
  }

  /**
   Three-way comparison of `loc` against the triple (component, segment,
   fraction): negative when `loc` comes first, zero when equal, positive
   when `loc` comes after.
   */
  function CompareLocationValues(loc: Location, component: nat, segment: nat, fraction: real): (r: int)
    ensures -1 <= r <= 1
    ensures r < 0 <==> TripleLess(loc.component, loc.segment, loc.fraction, component, segment, fraction)
    ensures r > 0 <==> TripleLess(component, segment, fraction, loc.component, loc.segment, loc.fraction)
    ensures r == 0 <==> loc == Location(component, segment, fraction)
  {
    if loc.component < component then -1
    else if loc.component > component then 1
    else if loc.segment < segment then -1
    else if loc.segment > segment then 1
    else if loc.fraction < fraction then -1
    else if loc.fraction > fraction then 1
    else 0
  }

  function CompareTo(a: Location, b: Location): (r: int)
    ensures -1 <= r <= 1
  {
    CompareLocationValues(a, b.component, b.segment, b.fraction)
  }

  /** `a` comes strictly before `b` in location order. */
  predicate Before(a: Location, b: Location) {
    CompareTo(a, b) < 0
  }

  /** The comparison is antisymmetric and zero exactly on equal locations. */
  lemma CompareToAntisymmetric(a: Location, b: Location)
    ensures CompareTo(a, b) == -CompareTo(b, a)
    ensures CompareTo(a, b) == 0 <==> a == b
  {
  }

  /** `Before` is a strict total order. */
  lemma BeforeIsStrictTotalOrder(a: Location, b: Location, c: Location)
    ensures !Before(a, a)
    ensures Before(a, b) ==> !Before(b, a)
    ensures Before(a, b) && Before(b, c) ==> Before(a, c)
    ensures a != b ==> Before(a, b) || Before(b, a)
  {
  }

  /** The location sits exactly on a vertex (either end of its segment). */
  predicate IsVertex(loc: Location) {
    loc.fraction <= 0.0 || loc.fraction >= 1.0
  }

  /**
   The index of the first vertex at or after `loc` within its component: the
   segment's start vertex when `loc` is on it, otherwise the segment's end
   vertex.
   */
  function VertexIndexAtOrAfter(loc: Location): (r: nat)
    ensures WellFormed(loc) ==> (r == loc.segment <==> loc.fraction == 0.0)
    ensures r == loc.segment || r == loc.segment + 1
  {
    if loc.fraction > 0.0 then loc.segment + 1 else loc.segment
  }

  /**
   The vertex (c, i) lies at or after `loc` exactly when (c, i) is at or
   after (loc.component, VertexIndexAtOrAfter(loc)) in lexicographic order.
   */
  lemma VertexNotBeforeIff(loc: Location, c: nat, i: nat)
    requires WellFormed(loc)
    ensures !Before(Location(c, i, 0.0), loc)
        <==> (c > loc.component || (c == loc.component && i >= VertexIndexAtOrAfter(loc)))
  {
  }
}

=== FILE: options.dfy ===
/** A value that may be absent. */
module Options {
  datatype Option<T> = None | Some(value: T)
}

=== FILE: ordering.dfy ===
/**
 Address order of the extracted points.

 Each tagged output point stands for a linear location: the start's
 interpolated point for `start`, the end's for `end`, and a source vertex for
 that vertex's location (fraction 0). For a forward extraction the output
 points, read line by line in the order produced, never step back in
 location order.
 */
module Ordering {
  import opened Locations
  import opened Geometries
  import opened Traversal
  import opened LineBuilder
  import opened LinearExtraction

  /** The location a tagged point stands for. */
  function Address(p: Point, start: Location, end: Location): (r: Location) {
    match p.source
    case AtStart => start
    case AtEnd => end
    case AtVertex(c, i) => Location(c, i, 0.0)
  }

  /** No point comes after a later one in location order. */
  predicate InAddressOrder(ps: seq<Point>, start: Location, end: Location) {
    forall i, j :: 0 <= i < j < |ps| ==> !Before(Address(ps[j], start, end), Address(ps[i], start, end))
  }

  /** Every point of `ps` stands for a location no later than `loc`. */
  predicate AllAtOrBefore(ps: seq<Point>, loc: Location, start: Location, end: Location) {
    forall p :: p in ps ==> !Before(loc, Address(p, start, end))
  }

  /** Appending a point that is not before any earlier one keeps the order. */
  lemma AppendInOrder(ps: seq<Point>, x: Point, start: Location, end: Location)
    requires InAddressOrder(ps, start, end)
    requires AllAtOrBefore(ps, Address(x, start, end), start, end)
    ensures InAddressOrder(ps + [x], start, end)
    ensures AllAtOrBefore(ps + [x], Address(x, start, end), start, end)
  {
    var r := ps + [x];
    forall i, j | 0 <= i < j < |r|
      ensures !Before(Address(r[j], start, end), Address(r[i], start, end))
    {
      if j == |ps| {
        assert r[i] in ps;
      }
    }
    BeforeIsStrictTotalOrder(Address(x, start, end), Address(x, start, end), Address(x, start, end));
  }

  /** In an ordered sequence, every point is at or before the last one. */
  lemma LastIsLatest(ps: seq<Point>, start: Location, end: Location)
    requires |ps| > 0 && InAddressOrder(ps, start, end)
    ensures AllAtOrBefore(ps, Address(ps[|ps| - 1], start, end), start, end)
  {
    var last := Address(ps[|ps| - 1], start, end);
    forall p | p in ps ensures !Before(last, Address(p, start, end)) {
      var i :| 0 <= i < |ps| && ps[i] == p;
      if i == |ps| - 1 {
        BeforeIsStrictTotalOrder(last, last, last);
      }
    }
  }

  /** Raising the bound keeps every point at or before it. */
  lemma RaiseBound(ps: seq<Point>, lo: Location, hi: Location, start: Location, end: Location)
    requires AllAtOrBefore(ps, lo, start, end) && !Before(hi, lo)
    ensures AllAtOrBefore(ps, hi, start, end)
  {
    forall p | p in ps ensures !Before(hi, Address(p, start, end)) {
      BeforeIsStrictTotalOrder(hi, lo, Address(p, start, end));
    }
  }

  /** One loop pass appends its vertex point once, or twice when it closes a one-point line. */
  lemma StepTrail(b: Builder<Point>, v: Vertex)
    requires Valid(b)
    ensures Trail(Step(b, v)) == Trail(b) + [VertexPoint(v)]
      || Trail(Step(b, v)) == Trail(b) + [VertexPoint(v)] + [VertexPoint(v)]
  {
    var added := Add(b, VertexPoint(v));
    AddExtendsTrail(b, VertexPoint(v));
    if v.endOfLine {
      EndLineTrail(added);
    }
  }

  /** A loop pass keeps the trail in order, and at or before the vertex it added. */
  lemma StepInOrder(b: Builder<Point>, v: Vertex, start: Location, end: Location)
    requires Valid(b) && InAddressOrder(Trail(b), start, end)
    requires AllAtOrBefore(Trail(b), LocationOf(v), start, end)
    ensures InAddressOrder(Trail(Step(b, v)), start, end)
    ensures AllAtOrBefore(Trail(Step(b, v)), LocationOf(v), start, end)
  {
    var x := VertexPoint(v);
    assert Address(x, start, end) == LocationOf(v);
    StepTrail(b, v);
    AppendInOrder(Trail(b), x, start, end);
    if Trail(Step(b, v)) != Trail(b) + [x] {
      AppendInOrder(Trail(b) + [x], x, start, end);
    }
  }

  /** One loop pass sets up the loop invariant for the rest of the run. */
  lemma VisitStepInOrder(b: Builder<Point>, vs: seq<Vertex>, start: Location, end: Location)
    requires Valid(b) && Ascending(vs) && InAddressOrder(Trail(b), start, end)
    requires |vs| > 0 && !PastEnd(vs[0], end)
    requires AllAtOrBefore(Trail(b), LocationOf(vs[0]), start, end)
    ensures var next := Step(b, vs[0]);
      && InAddressOrder(Trail(next), start, end)
      && (|vs| > 1 ==> AllAtOrBefore(Trail(next), LocationOf(vs[1]), start, end))
      && AllAtOrBefore(Trail(next), end, start, end)
  {
    var v := vs[0];
    var next := Step(b, v);
    StepInOrder(b, v, start, end);
    if |vs| > 1 {
      assert PositionLess(v, vs[1]);
      RaiseBound(Trail(next), LocationOf(v), LocationOf(vs[1]), start, end);
    }
    RaiseBound(Trail(next), LocationOf(v), end, start, end);
  }

  /**
   Along an ascending run of vertices, the loop keeps the trail in location
   order, and every point stays at or before `end`.
   */
  lemma {:induction false} VisitInOrder(b: Builder<Point>, vs: seq<Vertex>, start: Location, end: Location)
    requires Valid(b) && Ascending(vs) && InAddressOrder(Trail(b), start, end)
    requires |vs| > 0 ==> AllAtOrBefore(Trail(b), LocationOf(vs[0]), start, end)
    requires AllAtOrBefore(Trail(b), end, start, end)
    ensures InAddressOrder(Trail(Visit(b, vs, end)), start, end)
    ensures AllAtOrBefore(Trail(Visit(b, vs, end)), end, start, end)
    decreases |vs|
  {
    if |vs| > 0 && !PastEnd(vs[0], end) {
      VisitStepInOrder(b, vs, start, end);
      assert vs[1..] == [] || vs[1..][0] == vs[1];
      VisitInOrder(Step(b, vs[0]), vs[1..], start, end);
    }
  }

  /** After the start's point, the trail is in order and at or before every later location. */
  lemma StartInOrder(g: Geometry, start: Location, end: Location)
    requires ValidStart(g, start)
    ensures InAddressOrder(Trail(BuilderAfterStart(g, start)), start, end)
    ensures forall loc :: !Before(loc, start) ==>
      AllAtOrBefore(Trail(BuilderAfterStart(g, start)), loc, start, end)
  {
    var b1 := BuilderAfterStart(g, start);
    assert Trail(New<Point>(true)) == [];
    if !IsVertex(start) {
      AddExtendsTrail(New<Point>(true), Point(Coordinate(g, start), AtStart));
      assert Trail(b1) == [Point(Coordinate(g, start), AtStart)];
    }
  }

  /** After the loop, the trail is in order and no point stands after `end`. */
  lemma LoopInOrder(g: Geometry, start: Location, end: Location)
    requires ValidStart(g, start) && !Before(end, start)
    ensures InAddressOrder(Trail(BuilderAfterLoop(g, start, end)), start, end)
    ensures AllAtOrBefore(Trail(BuilderAfterLoop(g, start, end)), end, start, end)
  {
    var b1 := BuilderAfterStart(g, start);
    var vs := Traverse(g, start);
    StartInOrder(g, start, end);
    if |vs| > 0 {
      assert vs[0] in vs;
    }
    VisitInOrder(b1, vs, start, end);
  }

  /** After the end's point, the trail is in order. */
  lemma EndInOrder(g: Geometry, start: Location, end: Location)
    requires ValidStart(g, start) && ValidLocation(g, end) && !Before(end, start)
    ensures InAddressOrder(Trail(BuilderAfterEnd(g, start, end)), start, end)
  {
    var b2 := BuilderAfterLoop(g, start, end);
    LoopInOrder(g, start, end);
    if !IsVertex(end) {
      var e := Point(Coordinate(g, end), AtEnd);
      AddExtendsTrail(b2, e);
      AppendInOrder(Trail(b2), e, start, end);
    }
  }

  /**
   For a forward extraction (the end not before the start), the output
   points, line after line in the order produced, never step back in
   location order.
   */
  lemma ComputeLinearInAddressOrder(g: Geometry, start: Location, end: Location)
    requires ValidStart(g, start) && ValidLocation(g, end) && !Before(end, start)
    ensures InAddressOrder(Flatten(ComputeLinearParts(g, start, end)), start, end)
  {
    var b3 := BuilderAfterEnd(g, start, end);
    EndInOrder(g, start, end);
    FinishTrail(b3);
    EndLineTrail(b3);
    if Trail(EndLine(b3)) != Trail(b3) {
      TrailEndsAtLastPoint(b3);
      LastIsLatest(Trail(b3), start, end);
      AppendInOrder(Trail(b3), LastPoint(b3), start, end);
    }
  }
}

=== FILE: single_line_extraction.dfy ===
/**
 The single-line extraction path.

 For a geometry that is one line, the sub-line between two locations is
 assembled directly from the line's coordinate sequence: the start's
 interpolated point when the start is not on a vertex, then the source
 vertices strictly after the start up to the end's segment (one further when
 the end's fraction is exactly 1, clamped to the last vertex), then the end's
 interpolated point when the end is not on a vertex. An empty assembly falls
 back to the start's point, and a single point is repeated so the result is
 always a valid two-point line.
 */
module SingleLineExtraction {
  import opened Locations
  import opened Geometries

  /**
   The index of the last source vertex copied: the end's segment index, one
   more when its fraction is exactly 1, clamped to the last vertex.
   */
  function SliceLast(pts: seq<Coord>, end: Location): (r: nat)
    requires end.segment < |pts|
    ensures r < |pts|
    ensures end.segment <= r <= end.segment + 1
    ensures r == end.segment + 1 <==> end.fraction == 1.0 && end.segment + 1 < |pts|
  {
    var last := if end.fraction == 1.0 then end.segment + 1 else end.segment;
    if last >= |pts| then |pts| - 1 else last
  }

  /** The source vertices copied between the two interpolated endpoints. */
  function Slice(pts: seq<Coord>, start: Location, end: Location): (r: seq<Coord>)
    requires end.segment < |pts|
  {
    var first := VertexIndexAtOrAfter(start);
    var last := SliceLast(pts, end);
    if first <= last then pts[first..last + 1] else []
  }

  /**
   The optional interpolated start point, the copied source vertices, and the
   optional interpolated end point, before any padding.
   */
  function Assembled(g: Geometry, start: Location, end: Location): (r: seq<Coord>)
    requires g.Line? && ValidLocation(g, start) && ValidLocation(g, end)
  {
    var head := if !IsVertex(start) then [Coordinate(g, start)] else [];
    var tail := if !IsVertex(end) then [Coordinate(g, end)] else [];
    head + Slice(g.points, start, end) + tail
  }

  /** The extracted line for a single-line geometry. */
  function ComputeLine(g: Geometry, start: Location, end: Location): (r: Geometry)
    requires g.Line? && ValidLocation(g, start) && ValidLocation(g, end)
    ensures r.Line? && |r.points| >= 2
    ensures !IsVertex(start) ==> r.points[0] == Coordinate(g, start)
    ensures !IsVertex(end) ==> r.points[|r.points| - 1] == Coordinate(g, end)
    ensures forall p :: p in r.points ==>
      p == Coordinate(g, start) || p == Coordinate(g, end) || p in g.points
  {
    var assembled := Assembled(g, start, end);
    var nonEmpty := if |assembled| == 0 then [Coordinate(g, start)] else assembled;
    var padded := if |nonEmpty| <= 1 then nonEmpty + [nonEmpty[0]] else nonEmpty;
    Line(padded)
  }

  /**
   Between the optional interpolated start and end points, the result holds
   the source vertices from the first vertex at or after the start through
   `SliceLast`, contiguously and in source order, and nothing else: the
   result's length is exactly the two optional points plus that range. A
   range of one vertex with neither interpolated point is that vertex
   repeated.
   */
  lemma ComputeLineKeepsSlice(g: Geometry, start: Location, end: Location)
    requires g.Line? && ValidLocation(g, start) && ValidLocation(g, end)
    ensures var r := ComputeLine(g, start, end).points;
      var offset := if IsVertex(start) then 0 else 1;
      var first := VertexIndexAtOrAfter(start);
      var last := SliceLast(g.points, end);
      var size := offset + (last - first + 1) + (if IsVertex(end) then 0 else 1);
      first <= last ==>
        && first < |g.points|
        && (size >= 2 ==> |r| == size)
        && (size < 2 ==> r == [g.points[first], g.points[first]])
        && (forall k :: first <= k <= last ==> r[offset + k - first] == g.points[k])
        && (IsVertex(start) ==> r[0] == g.points[first])
  {
    AssembledKeepsSlice(g, start, end);
  }

  /** The assembly before padding: the optional start point, the copied range, the optional end point. */
  lemma AssembledKeepsSlice(g: Geometry, start: Location, end: Location)
    requires g.Line? && ValidLocation(g, start) && ValidLocation(g, end)
    ensures var a := Assembled(g, start, end);
      var offset := if IsVertex(start) then 0 else 1;
      var first := VertexIndexAtOrAfter(start);
      var last := SliceLast(g.points, end);
      first <= last ==>
        && |a| == offset + (last - first + 1) + (if IsVertex(end) then 0 else 1)
        && (forall k :: first <= k <= last ==> a[offset + k - first] == g.points[k])
  {
    var first := VertexIndexAtOrAfter(start);
    var last := SliceLast(g.points, end);
    if first <= last {
      var head := if !IsVertex(start) then [Coordinate(g, start)] else [];
      var tail := if !IsVertex(end) then [Coordinate(g, end)] else [];
      SliceInAssembly(head, g.points, first, last, tail);
    }
  }

  /** Vertices `first..last` of `pts` sit right after `head` in `head + pts[first..last + 1] + tail`. */
  lemma SliceInAssembly(head: seq<Coord>, pts: seq<Coord>, first: nat, last: nat, tail: seq<Coord>)
    requires first <= last < |pts|
    ensures var a := head + pts[first..last + 1] + tail;
      && |a| == |head| + (last - first + 1) + |tail|
      && forall k :: first <= k <= last ==> a[|head| + k - first] == pts[k]
  {
    var a := head + pts[first..last + 1] + tail;
    forall k | first <= k <= last ensures a[|head| + k - first] == pts[k] {
      assert a[|head| + k - first] == pts[first..last + 1][k - first];
    }
  }

  /**
   When no source vertex lies in the copied range, the result is two
   points, each the start's or the end's point: the end's point last when
   the end is not a vertex, and the start's point first when the start is
   not a vertex.
   */
  lemma ComputeLineWithoutVertices(g: Geometry, start: Location, end: Location)
    requires g.Line? && ValidLocation(g, start) && ValidLocation(g, end)
    requires VertexIndexAtOrAfter(start) > SliceLast(g.points, end)
    ensures var r := ComputeLine(g, start, end).points;
      var cs := Coordinate(g, start);
      var ce := Coordinate(g, end);
      && |r| == 2
      && r[0] == (if IsVertex(start) && !IsVertex(end) then ce else cs)
      && r[1] == (if IsVertex(end) then cs else ce)
  {
    assert Slice(g.points, start, end) == [];
  }

  /** The first point of the line is the start's point. */
  lemma ComputeLineStartsAtStart(g: Geometry, start: Location, end: Location)
    requires g.Line? && ValidLocation(g, start) && ValidLocation(g, end)
    requires !Before(end, start)
    ensures ComputeLine(g, start, end).points[0] == Coordinate(g, start)
  {
    var pts := g.points;
    var first := VertexIndexAtOrAfter(start);
    var last := SliceLast(pts, end);
    if IsVertex(start) {
      ComputeLineKeepsSlice(g, start, end);
      if first > last {
        // only possible when the start is the final vertex, reached with fraction 1
        assert start.fraction == 1.0 && start.segment + 1 == |pts|;
        assert Assembled(g, start, end) == [];
      }
    }
  }

  /** The last point of the line is the end's point. */
  lemma ComputeLineEndsAtEnd(g: Geometry, start: Location, end: Location)
    requires g.Line? && ValidLocation(g, start) && ValidLocation(g, end)
    requires !Before(end, start)
    ensures var r := ComputeLine(g, start, end).points; r[|r| - 1] == Coordinate(g, end)
  {
    var pts := g.points;
    var a := Assembled(g, start, end);
    var first := VertexIndexAtOrAfter(start);
    var last := SliceLast(pts, end);
    if IsVertex(end) {
      if first <= last {
        var s := Slice(pts, start, end);
        assert s[|s| - 1] == pts[last];
        assert a[|a| - 1] == pts[last];
      } else {
        // the start lies past the final vertex's segment start
        assert start.fraction > 0.0 && start.segment + 1 == |pts|;
        assert end.segment + 1 == |pts|;
        assert Coordinate(g, end) == pts[end.segment];
        if IsVertex(start) {
          assert a == [];
        } else {
          assert a == [Coordinate(g, start)];
        }
      }
    }
  }

  /**
   When the start does not come after the end, the extracted line runs from
   the start's point to the end's point.
   */
  lemma ComputeLineEndpoints(g: Geometry, start: Location, end: Location)
    requires g.Line? && ValidLocation(g, start) && ValidLocation(g, end)
    requires !Before(end, start)
    ensures var r := ComputeLine(g, start, end).points;
      r[0] == Coordinate(g, start) && r[|r| - 1] == Coordinate(g, end)
  {
    ComputeLineStartsAtStart(g, start, end);
    ComputeLineEndsAtEnd(g, start, end);
  }

  /**
   Extracting between a location and itself yields a two-point line whose
   points both equal the location's point.
   */
  lemma ComputeLineAtOneLocation(g: Geometry, loc: Location)
    requires g.Line? && ValidLocation(g, loc)
    ensures ComputeLine(g, loc, loc).points == [Coordinate(g, loc), Coordinate(g, loc)]
  {
    var r := ComputeLine(g, loc, loc).points;
    ComputeLineEndpoints(g, loc, loc);
    var first := VertexIndexAtOrAfter(loc);
    var last := SliceLast(g.points, loc);
    assert first <= last ==> first == last;
    assert |r| == 2;
  }
}

=== FILE: traversal.dfy ===
/**
 The ordered vertex traversal of a linear geometry.

 Starting from a location, the traversal visits, in ascending order, every
 vertex at or after that location: the rest of the location's own component
 from the first vertex at or after it, then every later component in full.
 Each visited vertex carries its position, its coordinate and whether it is
 the last vertex of its component.
 */
module Traversal {
  import opened Locations
  import opened Geometries

  datatype Vertex = Vertex(component: nat, index: nat, pt: Coord, endOfLine: bool)

  /** `v` is vertex (component, index) of `comps`, with its coordinate and end-of-line flag. */
  predicate IsVertexOf(comps: seq<seq<Coord>>, v: Vertex) {
    && v.component < |comps|
    && v.index < |comps[v.component]|
    && v.pt == comps[v.component][v.index]
    && v.endOfLine == (v.index == |comps[v.component]| - 1)
  }

  /** The location of vertex `v` (fraction 0 on the segment it starts). */
  function LocationOf(v: Vertex): (r: Location) {
    Location(v.component, v.index, 0.0)
  }

  /** Strict lexicographic order on (component, index) positions. */
  predicate PositionLess(a: Vertex, b: Vertex) {
    a.component < b.component || (a.component == b.component && a.index < b.index)
  }

  predicate Ascending(vs: seq<Vertex>) {
    forall i, j :: 0 <= i < j < |vs| ==> PositionLess(vs[i], vs[j])
  }

  /** A vertex that does not end its component is followed by one of the same component. */
  predicate Chained(vs: seq<Vertex>) {
    forall i :: 0 <= i < |vs| - 1 ==> (vs[i].endOfLine || vs[i + 1].component == vs[i].component)
  }

  /** The vertices of component `c` (coordinates `pts`) from index `from` on. */
  function ComponentVertices(c: nat, pts: seq<Coord>, from: nat): (r: seq<Vertex>)
    ensures |r| == if from <= |pts| then |pts| - from else 0
    ensures forall k :: 0 <= k < |r| ==> r[k] == Vertex(c, from + k, pts[from + k], from + k == |pts| - 1)
  {
    if from >= |pts| then []
    else seq(|pts| - from, k requires 0 <= k < |pts| - from => Vertex(c, from + k, pts[from + k], from + k == |pts| - 1))
  }

  /** All vertices of the components `c`, `c + 1`, ... of `comps`, in order. */
  function VerticesFrom(comps: seq<seq<Coord>>, c: nat): (r: seq<Vertex>)
    decreases |comps| - c
  {
    if c >= |comps| then []
    else ComponentVertices(c, comps[c], 0) + VerticesFrom(comps, c + 1)
  }

  /** The vertices the traversal visits when started at `start`. */
  function Traverse(g: Geometry, start: Location): (r: seq<Vertex>)
    requires ValidStart(g, start)
    ensures Ascending(r)
    ensures Chained(r)
    ensures forall v :: v in r <==> IsVertexOf(Components(g), v) && !Before(LocationOf(v), start)
    ensures VertexIndexAtOrAfter(start) < |Components(g)[start.component]| ==>
      |r| > 0 && r[0].component == start.component && r[0].index == VertexIndexAtOrAfter(start)
  {
    var comps := Components(g);
    var first := ComponentVertices(start.component, comps[start.component], VertexIndexAtOrAfter(start));
    var rest := VerticesFrom(comps, start.component + 1);
    ComponentVerticesFacts(start.component, comps[start.component], VertexIndexAtOrAfter(start));
    VerticesFromFacts(comps, start.component + 1);
    AscendingAppend(first, rest);
    ChainedAppend(first, rest);
    forall v: Vertex
      ensures v in first + rest <==> IsVertexOf(comps, v) && !Before(LocationOf(v), start)
    {
      VertexNotBeforeIff(start, v.component, v.index);
    }
    first + rest
  }

  lemma ComponentVerticesFacts(c: nat, pts: seq<Coord>, from: nat)
    ensures Ascending(ComponentVertices(c, pts, from))
    ensures Chained(ComponentVertices(c, pts, from))
    ensures var r := ComponentVertices(c, pts, from); |r| > 0 ==> r[|r| - 1].endOfLine
    ensures forall v :: v in ComponentVertices(c, pts, from) <==>
      v.component == c && from <= v.index < |pts| && v.pt == pts[v.index] && v.endOfLine == (v.index == |pts| - 1)
  {
    var r := ComponentVertices(c, pts, from);
    forall v: Vertex | v.component == c && from <= v.index < |pts| && v.pt == pts[v.index] && v.endOfLine == (v.index == |pts| - 1)
      ensures v in r
    {
      assert r[v.index - from] == v;
    }
  }

  lemma {:induction false} VerticesFromFacts(comps: seq<seq<Coord>>, c: nat)
    ensures Ascending(VerticesFrom(comps, c))
    ensures Chained(VerticesFrom(comps, c))
    ensures forall v :: v in VerticesFrom(comps, c) <==> c <= v.component && IsVertexOf(comps, v)
    decreases |comps| - c
  {
    if c < |comps| {
      var first := ComponentVertices(c, comps[c], 0);
      var rest := VerticesFrom(comps, c + 1);
      ComponentVerticesFacts(c, comps[c], 0);
      VerticesFromFacts(comps, c + 1);
      AscendingAppend(first, rest);
      ChainedAppend(first, rest);
    }
  }

  lemma AscendingAppend(a: seq<Vertex>, b: seq<Vertex>)
    requires Ascending(a) && Ascending(b)
    requires forall x, y :: x in a && y in b ==> PositionLess(x, y)
    ensures Ascending(a + b)
  {
    forall i, j | 0 <= i < j < |a + b|
      ensures PositionLess((a + b)[i], (a + b)[j])
    {
      if j < |a| {
      } else if i >= |a| {
        assert (a + b)[i] == b[i - |a|] && (a + b)[j] == b[j - |a|];
      } else {
        assert (a + b)[i] in a && (a + b)[j] in b;
      }
    }
  }

  lemma ChainedAppend(a: seq<Vertex>, b: seq<Vertex>)
    requires Chained(a) && Chained(b)
    requires |a| > 0 ==> a[|a| - 1].endOfLine
    ensures Chained(a + b)
  {
    forall i | 0 <= i < |a + b| - 1
      ensures (a + b)[i].endOfLine || (a + b)[i + 1].component == (a + b)[i].component
    {
      if i >= |a| {
        assert (a + b)[i] == b[i - |a|] && (a + b)[i + 1] == b[i + 1 - |a|];
      }
    }
  }
}
